=== FILE: README.md ===
# hal liftover core, mmap allocator and option registry in Dafny

This project models three parts of the HAL comparative-genomics toolkit and proves properties
of them.

- **Liftover of one BED line.** This is `Liftover::visitLine` and its helpers. A line of a BED
  file is checked against the source genome's sequence table. A line without blocks is mapped
  as one interval. A line with blocks is mapped block by block: `liftBlockIntervals` builds one
  query interval per non-empty block.
  - The fragments that come back are sorted by source start. `assignBlocksToIntervals` then
    groups them into output records:
    - A fragment starts a new record when it is not `compatible` with the record under
      construction. It also starts one, in PSL mode, when it overlaps a neighbour in source
      coordinates (a duplication).
    - Otherwise it extends the record: the record grows to the fragment's hull and gains one
      block.
  - Block starts are then made relative to the record start.
  - `flipBlocks` reverses each record that is in the wrong order. For PSL output,
    `computePSLInserts` counts the target and query inserts.
  - `cleanResults` fixes the thick range and the PSL query extent, and drops empty block
    records. The survivors are sorted by source start.
- **Bump allocator of a memory-mapped HAL file.** This covers `alignRound`, `allocMem`,
  `getRootOffset` and `isReadOnly`, over the header's next-free and root offsets, the file
  size and the access mode.
- **Option registry of the command-line parser.** This covers `addOption`, `getOption`,
  `getArgument`, `get`, `getOptionAlt`, `getFlagAlt` and the string conversion, with `string`
  values.

Modules:

| module | file | content |
|---|---|---|
| `Wrappers` | `wrappers.dfy` | `Option` and `Result` |
| `Sorting` | `sorting.dfy` | stable insertion sort by an integer key; order-independent sums |
| `Bed` | `bed.dfy` | `Block`, `Stats`, `PslInfo`, `BedLine`; block orderings; `Reverse` |
| `Assembly` | `assembly.dfy` | `compatible`, the duplicate test and the grouping loop |
| `Orientation` | `orientation.dfy` | relativising block starts and `flipBlocks` |
| `PslInserts` | `inserts.dfy` | `computePSLInserts` |
| `Cleanup` | `cleanup.dfy` | `cleanResults` |
| `Liftover` | `liftover.dfy` | `visitLine`, `liftBlockIntervals`, `assignBlocksToIntervals` |
| `MMapFile` | `mmapfile.dfy` | `alignRound`, `allocMem`, `getRootOffset`, `isReadOnly` |
| `CLParser` | `clparser.dfy` | the option registry |

The alignment walk `liftInterval` is not modelled. It is the parameter `lift` of the liftover
functions, and `Liftover.LiftContract` states what its fragments are assumed to be:
- each fragment is a non-empty target interval without blocks;
- in PSL mode, each fragment carries PSL statistics and no query starts yet.

The genome's sequence table is a map from sequence name to length.

The thrown `hal_exception`s become `Failure` values.

## Model

| member | source | states |
|---|---|---|
| Sorting.SortByKey | liftover/impl/halLiftover.cpp:112 | the result is a permutation of the input, in non-decreasing key order (used for `BedLineSrcLess` and for block order) |
| Bed.ReverseReverse | liftover/impl/halLiftover.cpp:209-212 | reversing twice gives the original list back |
| Bed.ReverseOrders | liftover/impl/halLiftover.cpp:209-212 | reversing turns ascending non-overlapping blocks into descending ones and back, keeping lengths positive |
| Bed.ReverseQOrders | liftover/impl/halLiftover.cpp:209-212 | reversing blocks and query starts together swaps ascending and descending query order |
| Assembly.ExtendChain | liftover/impl/halLiftover.cpp:169-195 | a fragment that `compatible` accepts (same strand, a different source start, no overlap past the last block in the growth direction, same chromosome) keeps the grown record's blocks positive, non-overlapping and ordered in the growth direction, with the record equal to their hull |
| Assembly.CompatibleSeesLaterSource | liftover/impl/halLiftover.cpp:169-173 | with fragments sorted by source start, the record a fragment is compared with never starts later in source (the assertion in `compatible`) |
| Assembly.Place | liftover/impl/halLiftover.cpp:120-145 | one loop step: records stay non-empty; at most one record is added, and never none |
| Assembly.PlaceFrame | liftover/impl/halLiftover.cpp:120-145 | a step opens a new record exactly when the record count grows, leaving earlier records untouched; otherwise only the last record gains the fragment's block; the fragment's block is last either way |
| Assembly.GroupUpTo | liftover/impl/halLiftover.cpp:113-146 | after `k` fragments there are between 1 and `k` records (none for `k = 0`), each with blocks |
| Assembly.OpenShape | liftover/impl/halLiftover.cpp:125-145 | a record opened by a fragment is a one-block record spanning the fragment, with the fragment's source start as first query start |
| Assembly.ExtendShape | liftover/impl/halLiftover.cpp:131-145 | extending a record by a compatible fragment keeps the blocks ordered in the growth direction and the record equal to their hull |
| Assembly.PlaceKeepsShape | liftover/impl/halLiftover.cpp:120-145 | each loop step preserves the record shape invariant |
| Assembly.PlaceKeepsContent | liftover/impl/halLiftover.cpp:131-145 | each loop step appends exactly the fragment's block, its source start (PSL) and its statistics (PSL) to the concatenated records |
| Assembly.OpenRun | liftover/impl/halLiftover.cpp:122-145 | a record opened by a fragment holds exactly that fragment: its one block, its source start and (PSL) its statistics |
| Assembly.ExtendRun | liftover/impl/halLiftover.cpp:131-145 | extending a record that holds a run of fragments gives a record holding the run plus the fragment: its blocks, query starts and (PSL) statistics, the statistics added only from the second block on |
| Assembly.PlaceKeepsRuns | liftover/impl/halLiftover.cpp:120-145 | each loop step either starts a new one-fragment run or adds the fragment to the last run, keeping every record equal to its run |
| Assembly.GroupUpToRuns | liftover/impl/halLiftover.cpp:113-146 | induction: the first `k` fragments are cut, in order, into non-empty consecutive runs, one per record, each record holding exactly its run's blocks, query starts and statistics |
| Assembly.GroupUpToShape | liftover/impl/halLiftover.cpp:113-146 | induction: every record built so far has the assembled shape |
| Assembly.GroupUpToHasPsl | liftover/impl/halLiftover.cpp:136-144 | in PSL mode every record built so far carries PSL information |
| Assembly.GroupUpToKeepsThick | liftover/impl/halLiftover.cpp:113-146 | grouping never writes the thick region: records built from fragments that share one carry it too |
| Assembly.GroupUpToContent | liftover/impl/halLiftover.cpp:113-146 | induction: concatenated in record order, the records hold the first `k` fragments' blocks and (PSL) source starts, in order, and their statistics add up to the fragments' |
| Assembly.GroupTheorem | liftover/impl/halLiftover.cpp:108-146 | every record is ordered along the target in the direction its strand implies and spans its blocks; there are records iff there are fragments; every fragment is one block, in order; for PSL the query starts are the fragments' source starts; and the fragments are cut, in order, into non-empty consecutive runs, one per record, each record holding exactly its run's blocks and (PSL) query starts and summed statistics |
| Assembly.LastRecordSource | liftover/impl/halLiftover.cpp:120-131 | the last record's source start is some earlier fragment's source start |
| Orientation.RelativizeRoundTrip | liftover/impl/halLiftover.cpp:148-154 | relativising block starts loses nothing: adding the record start back restores the record |
| Orientation.RelativizeShape | liftover/impl/halLiftover.cpp:148-154 | every block start is at least the record start (the assertion in the loop); the relative blocks start at 0 and end at `end - start` |
| Orientation.RelativeCovers | liftover/impl/halLiftover.cpp:148-154 | after relativising, every block lies inside `[0, end - start)` |
| Orientation.FlipOnlyReorders | liftover/impl/halLiftover.cpp:197-215 | flipping either keeps the record, or reverses its blocks and (PSL) its query starts together and changes nothing else |
| Orientation.DeltaSign | liftover/impl/halLiftover.cpp:199-207 | the sign of the first gap tells whether the record was built ascending, that is, whether its strand is the input strand |
| Orientation.FlipNormalizes | liftover/impl/halLiftover.cpp:197-215 | after flipping, BED records ascend along the target; PSL records descend on '-' and ascend otherwise |
| Orientation.FlipIdempotent | liftover/impl/halLiftover.cpp:197-215 | flipping a flipped record changes nothing |
| Orientation.FlipQueryOrder | liftover/impl/halLiftover.cpp:216-231 | after flipping, query starts descend on a '-' query strand and ascend otherwise |
| Orientation.FlipDebugAssertions | liftover/impl/halLiftover.cpp:216-231 | all four debug assertions of `flipBlocks` hold for every adjacent pair of blocks |
| Orientation.NormalizedCovers | liftover/impl/halLiftover.cpp:148-159 | a record in output order keeps every block inside `[0, end - start)` |
| PslInserts.InsertCountBounds | liftover/impl/halLiftover.cpp:257-287 | there are between 0 and `n-1` inserts, and at least as many inserted bases as inserts |
| PslInserts.ComputeInserts | liftover/impl/halLiftover.cpp:236-290 | only the four insert counters change; each count is between 0 and `blocks-1`, and no larger than its base count; statistics are kept |
| PslInserts.AscendingTargetSpan | liftover/impl/halLiftover.cpp:257-267 | on ascending blocks every target gap is non-negative (the assertion), and inserts plus aligned bases equal the span |
| PslInserts.DescendingTargetSpan | liftover/impl/halLiftover.cpp:257-267 | the same for descending blocks on '-' |
| PslInserts.AscendingQuerySpan | liftover/impl/halLiftover.cpp:269-283 | on ascending query blocks, query inserts plus aligned bases equal the query span |
| PslInserts.DescendingQuerySpan | liftover/impl/halLiftover.cpp:269-283 | the same for descending query blocks on a '-' query strand |
| PslInserts.TargetInsertsFillRecord | liftover/impl/halLiftover.cpp:236-290 | for a record in output order, `tBaseInsert` plus the aligned bases is exactly `end - start` |
| Cleanup.MinQStart | liftover/impl/halLiftover.cpp:339-345 | the minimum of the query starts: no larger than any of them, and one of them unless the list is empty |
| Cleanup.MaxQEnd | liftover/impl/halLiftover.cpp:339-345 | the maximum query block end: no smaller than any of them, and one of them unless the list is empty |
| Cleanup.FixRecord | liftover/impl/halLiftover.cpp:313-348 | the thick range becomes the record when the input had one (BED7+); for PSL block records, `srcStart` and `qEnd` enclose all query blocks tightly; nothing else changes |
| Cleanup.Kept | liftover/impl/halLiftover.cpp:335-351 | the records `cleanResults` keeps: exactly the inputs that are not empty-block records of a block-typed line; all of them when none is empty |
| Cleanup.CleanResults | liftover/impl/halLiftover.cpp:313-355 | the result is the kept records, in their order, each fixed up: every result is a fixed-up kept input and every kept input's fix-up is in the result; block-typed output has no empty record; when nothing is dropped, the records are fixed one for one |
| Liftover.ExpandToBed12 | liftover/impl/halLiftover.cpp:47-50 | the line becomes BED12 with blocks; a line without blocks gets one block covering it; nothing else changes |
| Liftover.Prepared | liftover/impl/halLiftover.cpp:47-50 | with PSL output requested, the line is at least BED12 and has blocks if it was expanded; the name and interval are kept |
| Liftover.BlockQuery | liftover/impl/halLiftover.cpp:300-301 | a block's query differs from the line only in its bounds, starts at the line start plus the block's relative start, and is as long as the block |
| Liftover.QueriesOf | liftover/impl/halLiftover.cpp:299-306 | as many queries as there are non-empty blocks, so at most one per block |
| Liftover.QueriesOfMultiplicity | liftover/impl/halLiftover.cpp:299-306 | exactly one query per non-empty block: each non-empty block's query occurs as often as the block does, so a repeated block is queried once per copy |
| Liftover.SortedBlocks | liftover/impl/halLiftover.cpp:298 | the blocks permuted into ascending start order |
| Liftover.QueriesOfSound | liftover/impl/halLiftover.cpp:299-306 | every query is the query of a non-empty block |
| Liftover.QueriesOfComplete | liftover/impl/halLiftover.cpp:299-306 | every non-empty block's query is asked |
| Liftover.QueriesOfOrder | liftover/impl/halLiftover.cpp:298-306 | queries of sorted blocks come in ascending start order |
| Liftover.LiftBlockIntervalsSpec | liftover/impl/halLiftover.cpp:296-309 | `liftBlockIntervals` asks for exactly the non-empty blocks of the line, in ascending target order, with each non-empty block's query occurring exactly as often as the block occurs in the line |
| Liftover.PoolMembers | liftover/impl/halLiftover.cpp:302-304 | the mapped fragments are exactly the fragments of the lifted queries |
| Liftover.PoolFragments | liftover/impl/halLiftover.cpp:302-304 | everything in the pool is a fragment as the mapping primitive promises |
| Liftover.SortedFragments | liftover/impl/halLiftover.cpp:111-112 | sorting the fragments keeps them fragments, keeps their number and (PSL) their summed statistics |
| Liftover.OrientedShape | liftover/impl/halLiftover.cpp:108-159 | after grouping, relativising and flipping: every record is in output order inside its extent; there are records iff there are fragments; blocks count fragments; statistics are conserved |
| Liftover.AssignTheorem | liftover/impl/halLiftover.cpp:108-167 | `assignBlocksToIntervals`: every record in output order inside its extent, for PSL with target inserts filling it and bounded insert counts; every fragment becomes exactly one block; PSL statistics are conserved |
| Liftover.AssignRuns | liftover/impl/halLiftover.cpp:108-167 | `assignBlocksToIntervals` cuts the source-sorted fragments into non-empty consecutive runs, one per output record, together a permutation of the fragments; each record has one block per fragment of its run and, for PSL, its run's summed statistics |
| Liftover.OrientedTally | liftover/impl/halLiftover.cpp:148-215 | relativising and flipping a record built from a run keeps its block count and statistics equal to the run's |
| Liftover.TalliesPermutation | liftover/impl/halLiftover.cpp:88 | reordering records reorders their block counts and statistics |
| Liftover.LiftedShape | liftover/impl/halLiftover.cpp:72-82 | for a block line, every assembled record has the output shape, blocks count fragments, statistics are conserved |
| Liftover.LiftedRuns | liftover/impl/halLiftover.cpp:72-82 | for a block line, the assembled records correspond one for one to non-empty runs that together are a permutation of the mapped fragments, each record with its run's block count and (PSL) statistics |
| Liftover.LineRecords | liftover/impl/halLiftover.cpp:88-89 | the written records are in source-start order |
| Liftover.VisitLine | liftover/impl/halLiftover.cpp:46-92 | the missed-name set only grows, and only by the line's name; the warning is printed exactly for a new missing name; output only for a known sequence the line fits in; output sorted by source start |
| Liftover.VisitMissingSequence | liftover/impl/halLiftover.cpp:53-59 | an unknown sequence: no output, the name recorded, a warning only the first time |
| Liftover.VisitSkippedLine | liftover/impl/halLiftover.cpp:61-70 | a line past the sequence end or a block line with no blocks: no output, no state change |
| Liftover.VisitIntervalLine | liftover/impl/halLiftover.cpp:72-88 | a BED3–BED9 line: the output is a reordering of the primitive's fragments after the thick fix-up; for BED3–BED6 exactly a reordering of the fragments |
| Liftover.CleanIntervals | liftover/impl/halLiftover.cpp:313-348 | for a line without blocks no fragment is dropped: the result is each fragment fixed up, in order; below BED7 without PSL the fragments are unchanged |
| Liftover.CleanAssigned | liftover/impl/halLiftover.cpp:313-355 | cleaning assembled records drops none and keeps each one's shape, block count and statistics, with the query extent enclosing every query block |
| Liftover.QueryInsertsFillRecord | liftover/impl/halLiftover.cpp:269-283 | for a record whose query blocks run in its query strand's order, `qBaseInsert` plus the aligned bases is exactly `qEnd - qStart` after cleaning |
| Cleanup.AscendingQueryExtent | liftover/impl/halLiftover.cpp:339-345 | on ascending query blocks, the cleaned query start is the first block's and the query end the last block's |
| Cleanup.DescendingQueryExtent | liftover/impl/halLiftover.cpp:339-345 | on descending query blocks, the cleaned query start is the last block's and the query end the first block's |
| Liftover.SortWritten | liftover/impl/halLiftover.cpp:88 | the final sort keeps every record, hence every total |
| Liftover.ThickAssertion | liftover/impl/halLiftover.cpp:317-333 | the assertion that, when the input line has no thick region, no record has one: it holds for the records assembled before cleaning and for the records written after it, given a mapping primitive that copies an absent thick region |
| Liftover.LineRecordsOfBlocks | liftover/impl/halLiftover.cpp:74-88 | for a block line, the written records are shaped, count one block per fragment and conserve PSL statistics |
| Liftover.LineRecordsRuns | liftover/impl/halLiftover.cpp:74-88 | for a block line, the written records, as a multiset of (block count, statistics) pairs, are the runs of the mapped fragments |
| Liftover.VisitBlockLine | liftover/impl/halLiftover.cpp:46-92 | end to end for a line with blocks: output records in output order within their extent, PSL inserts filling them, query extents enclosing the query blocks, one block per mapped fragment, PSL statistics conserved; and the mapped fragments are cut into non-empty runs, one per output record, each record with its run's block count and (PSL) summed statistics |
| MMapFile.ReadOnlyIsWriteBit | api/mmap_impl/mmapFile.h:71-73 | `isReadOnly` depends only on the write bit: set, the file is writable; cleared, read-only |
| MMapFile.AlignRound | api/mmap_impl/mmapFile.h:80-82 | a multiple of the word size; without wrap-around it is at least `size` and less than `size + 8`; the last seven sizes wrap to 0 |
| MMapFile.AlignRoundIdempotent | api/mmap_impl/mmapFile.h:80-82 | aligned sizes are unchanged, so rounding twice is rounding once |
| MMapFile.AlignRoundIsAlignUp | api/mmap_impl/mmapFile.h:80-82 | without wrap-around, `alignRound` is the exact round-up |
| MMapFile.AllocMemAsWritten | api/mmap_impl/mmapFile.h:150-161 | as written: refused (state unchanged) iff read-only or the wrapped `nextOffset + size` exceeds the file size |
| MMapFile.AllocMemWrapCounterexample | api/mmap_impl/mmapFile.h:152-156 | as written, a `SIZE_MAX` request in a 16-byte file is granted at offset 8, and the next request gets offset 8 again |
| MMapFile.AllocMem | api/mmap_impl/mmapFile.h:150-161 | refused (state unchanged) exactly when read-only or `nextOffset + size > fileSize`; otherwise returns the old `nextOffset`; advances it by the rounded size; keeps alignment; the region fits the file; the root moves only for `isRoot` |
| MMapFile.AllocMemAgreesWithoutWrap | api/mmap_impl/mmapFile.h:150-161 | while the arithmetic does not wrap, the corrected and the as-written allocator agree |
| MMapFile.AllocMemRefusesOversize | api/mmap_impl/mmapFile.h:152-154 | the corrected allocator refuses the counterexample's request as file full |
| MMapFile.AllocationsDisjoint | api/mmap_impl/mmapFile.h:155-160 | consecutive allocations do not overlap |
| MMapFile.GetRootOffset | api/mmap_impl/mmapFile.h:122-125 | defined only once a root exists; the result is never the null offset |
| MMapFile.RootAfterAlloc | api/mmap_impl/mmapFile.h:157-159 | allocating the root makes `getRootOffset` return the new region; other allocations leave the root alone |
| CLParser.ConvertString | api/inc/halCLParser.h:166-168 | the token character for character, spaces included |
| CLParser.AddOption | api/inc/halCLParser.h:174-194 | refused iff the name is an option, flag or argument; otherwise registers it with value equal to default, not a flag, not specified, leaving everything else alone |
| CLParser.AddOptionKeepsNamesDistinct | api/inc/halCLParser.h:176-178 | adding an option keeps option and argument names disjoint |
| CLParser.GetOption | api/inc/halCLParser.h:196-202 | fails iff the name is missing or a flag; otherwise the stored value |
| CLParser.GetFlag | api/inc/halCLParser.h:90-92 | fails iff the name is not a flag; otherwise the stored value |
| CLParser.ArgIndex | api/inc/halCLParser.h:204-211 | the position of the first argument with the name, or none iff no argument has it |
| CLParser.GetArgument | api/inc/halCLParser.h:204-211 | the scan returns the first matching argument's value, fails iff there is none, and agrees with `ArgumentValue` |
| CLParser.ArgumentValue | api/inc/halCLParser.h:204-211 | succeeds iff some argument has the name, and then returns the value of the first such argument |
| CLParser.Get | api/inc/halCLParser.h:231-241 | looks the name up as an argument first: a name some argument has returns the first such argument's value, even when an option shares it; otherwise a registered option or flag returns its stored value; it fails, with `NameNotRecognized`, iff the name is no argument, option or flag |
| CLParser.GetOfOption | api/inc/halCLParser.h:231-241 | with distinct names, `get` of an option is its value |
| CLParser.GetOptionAlt | api/inc/halCLParser.h:213-220 | the obsolete option's value iff it was specified, else `getOption` of the current name |
| CLParser.GetFlagAlt | api/inc/halCLParser.h:222-229 | the obsolete flag's value iff it was specified, else the current flag's |
| CLParser.AddThenGet | api/inc/halCLParser.h:174-202 | after adding an option, `getOption`, `get` and `getOptionAlt` (unspecified obsolete name) return the default exactly; other names read as before |

## Left out

- `liftInterval` and the alignment and segment-iterator walk behind it are not part of this
  model. They are the parameter `lift`, constrained by `Liftover.LiftContract`.
- Stream I/O is not modelled: `scan`, `writeLineResults`, BED/PSL parsing and writing. The
  `std::cerr` warnings are reduced to the `warned` result of `VisitLine`.
- `expandToBed12`, `BedLineSrcLess` and `BedBlock::operator<` live in the BED headers, which
  are not part of this model.
  - `expandToBed12` is modelled as setting the type to 12 and, for a line without blocks,
    adding one block covering the line.
  - The two comparators are modelled as a stable sort on source start and on block start.
    Their tie-breaking keys are not modelled.
- `NULL_INDEX` is taken to be -1 (halDefs.h is not part of this model). It only affects the
  first fragment, which opens a record anyway.
- Coordinates are unbounded integers. `hal_index_t` overflow is not modelled.
- PslInserts.ComputeInserts: a negative target gap counts as no insert. The source stores it
  in an unsigned `hal_size_t` and asserts it is non-negative. The two agree whenever the
  assertion holds, and the assertion is proved for records in output order
  (`AscendingTargetSpan`, `DescendingTargetSpan`).
- Orientation.FlipQueryOrder: proved only when:
  - target strands and the input strand are '+' or '-';
  - the query strand is '-' exactly when the input strand is.

  The query strand comes from `liftInterval`, which is not modelled.
- Orientation.FlipDebugAssertions: the same hypotheses as `FlipQueryOrder`, for the same reason.
- Cleanup.FixRecord: the assertion at halLiftover.cpp:332 depends on what `liftInterval` writes
  into the thick fields, which this model does not constrain. `Liftover.ThickAssertion` proves it
  only under the hypothesis `CopiesNoThick`: the primitive gives an interval without a thick
  region fragments without one.
- Liftover.QueryInsertsFillRecord: assumes the query blocks already run in the query strand's
  order, as `FlipQueryOrder` shows under its hypotheses, and that query starts are non-negative
  `hal_index_t` values. The cleaning loop starts its minimum at the largest `hal_index_t`, so
  larger starts would not be found.
- Liftover.VisitBlockLine: matches output records to runs of fragments only as equal multisets of
  (block count, statistics) pairs. The final sort by source start does not say which record came
  from which run.
- `writeBlocksAsIntervals` has no member of its own. It is the first branch of `Liftover.Lifted`.
- The rest of mmapFile.h is not modelled, because it is raw memory and file I/O: `toPtr`,
  `fetch`, `fetchIfNeeded`, header creation and loading, version parsing, `factory`, and the
  UDC protocol.
- `validateWriteAccess` (in mmapFile.cpp, not part of this model) is modelled as the
  `NotWritable` error for a mode without the write bit.
- `WRITE_ACCESS` is taken to be `0x2`. halDefs.h is not part of this model.
- MMapFile.GetRootOffset: the source's assertion `rootOffset > 0` is its precondition.
- The rest of the parser is in halCLParser.cpp, which is not part of this model. Left out for
  that reason: `parseOptions`, `printUsage`, `multiLine`, `setOptionPrefix`, `setDescription`,
  `setExample`, `addArgument`, `addOptionFlag`, and the constructor's standard options.
  - `hasOption`, `hasFlag`, `hasArgument`, `specifiedOption`, `specifiedFlag` and `getFlag` are
    modelled from their declared meaning:
    - registered as an option;
    - registered as a flag;
    - some argument has the name;
    - registered and given on the command line;
    - the stored value.
- The warning `getOptionAlt` and `getFlagAlt` print to `std::cerr` for an obsolete name is output only and is not modelled.
- CLParser.GetFlag: returns the stored string. Its conversion to `bool` is not modelled.
- Values are strings throughout. The `stringstream`-based `convertFromString<T>` for other types
  depends on the C++ library and is not modelled.
- The parser's `_maxOptLen` bookkeeping only serves usage printing and is not modelled.
- api/hdf5_impl/hdf5BottomSegmentIterator.h holds declarations only and is not modelled.

## Findings

| source | as written | input that shows it | evidently intended | confidence | as-written member | corrected member |
|---|---|---|---|---|---|---|
| api/mmap_impl/mmapFile.h:152-156 | the full-file test `nextOffset + size > fileSize` and the bump `nextOffset += alignRound(size)` are computed in 64-bit `size_t` | `nextOffset = 8`, `fileSize = 16`, `size = 2^64 - 1`: the sum wraps to 7, so the request is granted at offset 8; `alignRound` wraps to 0, so the next 8-byte request is granted offset 8 too | refuse every request that does not fit, in exact arithmetic | medium: only absurd sizes trigger it; not executed | MMapFile.AllocMemAsWritten, MMapFile.AllocMemWrapCounterexample | MMapFile.AllocMem, MMapFile.AllocMemRefusesOversize |

=== FILE: assembly.dfy ===
/** Grouping of mapped fragments into output records (`assignBlocksToIntervals` and
    `compatible` in liftover/impl/halLiftover.cpp). Fragments arrive sorted by source
    position; each one becomes one block of the current last record or opens a new record. */
module Assembly {
  import opened Wrappers
  import opened Bed
  import Sorting

  /** What the mapping primitive promises about each fragment it returns: a non-empty
      target interval, no blocks yet, and (for PSL output) a PSL part with no query starts. */
  ghost predicate IsFragment(f: BedLine, outPSL: bool) {
    && f.start < f.end
    && f.blocks == []
    && (outPSL ==> f.psl.Some? && f.psl.value.qBlockStarts == [])
  }

  ghost predicate AreFragments(frags: seq<BedLine>, outPSL: bool) {
    forall f :: f in frags ==> IsFragment(f, outPSL)
  }

  /** End of the fragment's interval in source coordinates. */
  function SrcEnd(f: BedLine): int {
    f.srcStart + (f.end - f.start)
  }

  /** Fragment `i` overlaps its predecessor or its successor in source coordinates. */
  predicate IsDupe(frags: seq<BedLine>, i: int)
    requires 0 <= i < |frags|
  {
    var prevSrcEnd := if i == 0 then NULL_INDEX else SrcEnd(frags[i - 1]);
    || frags[i].srcStart < prevSrcEnd
    || (i + 1 < |frags| && frags[i + 1].srcStart < SrcEnd(frags[i]))
  }

  /** Target distance from the record's last block to the new fragment, measured in the
      direction the record grows: backwards when its strand differs from the input's. */
  function Delta(rec: BedLine, f: BedLine, inStrand: char): int
    requires rec.blocks != []
  {
    var last := Last(rec.blocks);
    if rec.strand != inStrand then last.start - f.end else f.start - BlockEnd(last)
  }

  /** Whether fragment `f` may extend record `rec`. */
  predicate Compatible(rec: BedLine, f: BedLine, inStrand: char)
    requires rec.blocks != []
  {
    if rec.strand != f.strand then false
    else if rec.srcStart == f.srcStart then false
    else if Delta(rec, f, inStrand) < 0 then false
    else rec.chrName == f.chrName
  }

  /** Fragment `i` opens a new record. */
  predicate Opens(out: seq<BedLine>, frags: seq<BedLine>, i: int, outPSL: bool, inStrand: char)
    requires 0 <= i < |frags|
    requires out != [] ==> Last(out).blocks != []
  {
    || out == []
    || (outPSL && IsDupe(frags, i))
    || !Compatible(Last(out), frags[i], inStrand)
  }

  /** The block a fragment contributes, with an absolute start. */
  function FragBlock(f: BedLine): Block {
    Block(f.start, f.end - f.start)
  }

  /** Extends `rec` by fragment `f`: hull, one more block and, for PSL, one more query start
      and (after the first block) the fragment's statistics. */
  function AddBlock(rec: BedLine, f: BedLine, outPSL: bool): BedLine {
    var blocks := rec.blocks + [FragBlock(f)];
    var psl :=
      if outPSL && rec.psl.Some? && f.psl.Some? then
        var p := rec.psl.value;
        Some(p.(qBlockStarts := p.qBlockStarts + [f.srcStart],
                stats := if |blocks| > 1 then AddStats(p.stats, f.psl.value.stats) else p.stats))
      else rec.psl;
    rec.(start := Min(rec.start, f.start), end := Max(rec.end, f.end), blocks := blocks, psl := psl)
  }

  /** One iteration of the grouping loop: fragment `i` opens a copy of itself as a new
      record or not, and then becomes the last block of the last record. */
  function Place(out: seq<BedLine>, frags: seq<BedLine>, i: int, outPSL: bool, inStrand: char): (r: seq<BedLine>)
    requires 0 <= i < |frags|
    requires forall k :: 0 <= k < |out| ==> out[k].blocks != []
    ensures forall k :: 0 <= k < |r| ==> r[k].blocks != []
    ensures 0 < |r| <= |out| + 1
  {
    var out' := if Opens(out, frags, i, outPSL, inStrand) then out + [frags[i]] else out;
    out'[..|out'| - 1] + [AddBlock(Last(out'), frags[i], outPSL)]
  }

  /** The records built from the first `k` fragments. */
  function GroupUpTo(frags: seq<BedLine>, k: int, outPSL: bool, inStrand: char): (r: seq<BedLine>)
    requires 0 <= k <= |frags|
    ensures forall j :: 0 <= j < |r| ==> r[j].blocks != []
    ensures |r| <= k
    ensures (r == []) == (k == 0)
    decreases k
  {
    if k == 0 then []
    else Place(GroupUpTo(frags, k - 1, outPSL, inStrand), frags, k - 1, outPSL, inStrand)
  }

  /** The grouping loop over all fragments. */
  function Group(frags: seq<BedLine>, outPSL: bool, inStrand: char): seq<BedLine> {
    GroupUpTo(frags, |frags|, outPSL, inStrand)
  }

  // ---------------------------------------------------------------------------
  // Invariants of grouping

  /** The record's blocks run in target order, ascending when its strand is the input's and
      descending otherwise, and the record spans from its lowest block's start to its
      highest block's end. */
  ghost predicate Chained(r: BedLine, inStrand: char) {
    var bs := r.blocks;
    && bs != []
    && if r.strand == inStrand then
         Ascending(bs) && r.start == bs[0].start && r.end == BlockEnd(Last(bs))
       else
         Descending(bs) && r.start == Last(bs).start && r.end == BlockEnd(bs[0])
  }

  /** The shape every assembled record has: non-empty positive-length blocks chained in
      target order and, for PSL, one query start per block, ascending without overlap,
      the first one equal to the record's source start. */
  ghost predicate RecordShape(r: BedLine, outPSL: bool, inStrand: char) {
    && PositiveLengths(r.blocks)
    && Chained(r, inStrand)
    && (outPSL ==>
          && r.psl.Some?
          && |r.psl.value.qBlockStarts| == |r.blocks|
          && QAscending(r.psl.value.qBlockStarts, r.blocks)
          && r.srcStart == r.psl.value.qBlockStarts[0])
  }

  /** Blocks of all records, concatenated in record order. */
  function FlattenBlocks(out: seq<BedLine>): seq<Block> {
    if out == [] then [] else FlattenBlocks(out[..|out| - 1]) + Last(out).blocks
  }

  /** Query starts of all records, concatenated in record order. */
  function FlattenQ(out: seq<BedLine>): seq<int> {
    if out == [] then [] else FlattenQ(out[..|out| - 1]) + QStarts(Last(out))
  }

  /** The blocks the fragments contribute, in fragment order. */
  function FragBlocks(frags: seq<BedLine>): seq<Block> {
    if frags == [] then [] else FragBlocks(frags[..|frags| - 1]) + [FragBlock(Last(frags))]
  }

  /** The source starts of the fragments, in fragment order. */
  function SrcStarts(frags: seq<BedLine>): seq<int> {
    if frags == [] then [] else SrcStarts(frags[..|frags| - 1]) + [Last(frags).srcStart]
  }

  function StatsOf(r: BedLine): Stats {
    if r.psl.Some? then r.psl.value.stats else NoStats
  }

  function MatchesOf(r: BedLine): int { StatsOf(r).matches }
  function MisMatchesOf(r: BedLine): int { StatsOf(r).misMatches }
  function RepMatchesOf(r: BedLine): int { StatsOf(r).repMatches }
  function NCountOf(r: BedLine): int { StatsOf(r).nCount }

  /** Statistics summed over a list of records or fragments. */
  function TotalStats(s: seq<BedLine>): Stats {
    Stats(Sorting.SumOf(s, MatchesOf), Sorting.SumOf(s, MisMatchesOf),
          Sorting.SumOf(s, RepMatchesOf), Sorting.SumOf(s, NCountOf))
  }

  /** Reordering records does not change their summed statistics. */
  lemma TotalStatsPermutation(a: seq<BedLine>, b: seq<BedLine>)
    requires multiset(a) == multiset(b)
    ensures TotalStats(a) == TotalStats(b)
  {
    Sorting.SumOfPermutation(a, b, MatchesOf);
    Sorting.SumOfPermutation(a, b, MisMatchesOf);
    Sorting.SumOfPermutation(a, b, RepMatchesOf);
    Sorting.SumOfPermutation(a, b, NCountOf);
  }

  /** Shape part of the grouping invariant after `k` fragments: every record is shaped,
      there is a record once a fragment was seen, and the last record ends with the block
      (and, for PSL, the query start) of fragment `k - 1`. */
  ghost predicate ShapeInv(frags: seq<BedLine>, k: int, out: seq<BedLine>, outPSL: bool, inStrand: char)
    requires 0 <= k <= |frags|
  {
    && (forall j :: 0 <= j < |out| ==> RecordShape(out[j], outPSL, inStrand))
    && (out == []) == (k == 0)
    && (k > 0 ==>
          && Last(Last(out).blocks) == FragBlock(frags[k - 1])
          && (outPSL ==> Last(Last(out).psl.value.qBlockStarts) == frags[k - 1].srcStart))
  }

  /** Content part of the grouping invariant after `k` fragments: the records hold exactly
      the blocks, query starts and statistics of those fragments, in order. */
  ghost predicate ContentInv(frags: seq<BedLine>, k: int, out: seq<BedLine>, outPSL: bool)
    requires 0 <= k <= |frags|
  {
    && FlattenBlocks(out) == FragBlocks(frags[..k])
    && (outPSL ==> FlattenQ(out) == SrcStarts(frags[..k]) && TotalStats(out) == TotalStats(frags[..k]))
  }

  /** A fragment opening a record yields a record of the assembled shape. */
  lemma OpenShape(f: BedLine, outPSL: bool, inStrand: char)
    requires IsFragment(f, outPSL)
    ensures RecordShape(AddBlock(f, f, outPSL), outPSL, inStrand)
  {
    var r := AddBlock(f, f, outPSL);
    var bs := r.blocks;
    assert bs == [FragBlock(f)];
    assert Ascending(bs) && Descending(bs) && PositiveLengths(bs);
    assert r.start == bs[0].start && r.end == BlockEnd(bs[0]);
    if outPSL {
      assert r.psl.value.qBlockStarts == [f.srcStart];
      assert QAscending(r.psl.value.qBlockStarts, bs);
    }
  }

  /** Adding a compatible block keeps the record chained in its target direction. */
  lemma ExtendChain(rec: BedLine, f: BedLine, outPSL: bool, inStrand: char)
    requires PositiveLengths(rec.blocks) && Chained(rec, inStrand)
    requires f.start < f.end
    requires Compatible(rec, f, inStrand)
    ensures var r := AddBlock(rec, f, outPSL); PositiveLengths(r.blocks) && Chained(r, inStrand)
  {
    var r := AddBlock(rec, f, outPSL);
    var n := |rec.blocks|;
    assert forall j :: 0 <= j < n ==> r.blocks[j] == rec.blocks[j];
    assert r.blocks[n] == FragBlock(f);
    if rec.strand == inStrand {
      assert BlockEnd(r.blocks[n - 1]) <= r.blocks[n].start;
      forall i, j | 0 <= i < j <= n ensures BlockEnd(r.blocks[i]) <= r.blocks[j].start {
        if j == n && i < n - 1 {
          assert BlockEnd(r.blocks[i]) <= r.blocks[n - 1].start;
        }
      }
    } else {
      assert BlockEnd(r.blocks[n]) <= r.blocks[n - 1].start;
      forall i, j | 0 <= i < j <= n ensures BlockEnd(r.blocks[j]) <= r.blocks[i].start {
        if j == n && i < n - 1 {
          assert BlockEnd(r.blocks[n - 1]) <= r.blocks[i].start;
        }
      }
    }
  }

  /** Adding a fragment that starts past the previous fragment's source end keeps the
      query blocks ascending and parallel to the target blocks. */
  lemma ExtendQuery(rec: BedLine, f: BedLine, prev: BedLine)
    requires rec.blocks != [] && PositiveLengths(rec.blocks) && rec.psl.Some? && f.psl.Some?
    requires |rec.psl.value.qBlockStarts| == |rec.blocks|
    requires QAscending(rec.psl.value.qBlockStarts, rec.blocks)
    requires rec.srcStart == rec.psl.value.qBlockStarts[0]
    requires Last(rec.blocks) == FragBlock(prev)
    requires Last(rec.psl.value.qBlockStarts) == prev.srcStart && SrcEnd(prev) <= f.srcStart
    ensures var r := AddBlock(rec, f, true);
      && r.psl.Some?
      && |r.psl.value.qBlockStarts| == |r.blocks|
      && QAscending(r.psl.value.qBlockStarts, r.blocks)
      && r.srcStart == r.psl.value.qBlockStarts[0]
  {
    var r := AddBlock(rec, f, true);
    var n := |rec.blocks|;
    var q := rec.psl.value.qBlockStarts;
    var q' := r.psl.value.qBlockStarts;
    assert q' == q + [f.srcStart];
    assert forall j :: 0 <= j < n ==> r.blocks[j] == rec.blocks[j] && q'[j] == q[j];
    assert q'[n - 1] + r.blocks[n - 1].length <= q'[n];
    forall i, j | 0 <= i < j <= n ensures q'[i] + r.blocks[i].length <= q'[j] {
      if j == n && i < n - 1 {
        assert q'[i] + r.blocks[i].length <= q'[n - 1];
      }
    }
  }

  /** A compatible fragment that follows the record's last fragment (and, for PSL, does
      not overlap it in source coordinates) keeps the record in the assembled shape. */
  lemma ExtendShape(rec: BedLine, f: BedLine, prev: BedLine, outPSL: bool, inStrand: char)
    requires RecordShape(rec, outPSL, inStrand)
    requires IsFragment(f, outPSL)
    requires Compatible(rec, f, inStrand)
    requires Last(rec.blocks) == FragBlock(prev)
    requires outPSL ==> Last(rec.psl.value.qBlockStarts) == prev.srcStart && SrcEnd(prev) <= f.srcStart
    ensures RecordShape(AddBlock(rec, f, outPSL), outPSL, inStrand)
  {
    ExtendChain(rec, f, outPSL, inStrand);
    if outPSL {
      ExtendQuery(rec, f, prev);
    }
  }

  lemma TotalStatsSnoc(s: seq<BedLine>, r: BedLine)
    ensures TotalStats(s + [r]) == AddStats(TotalStats(s), StatsOf(r))
  {
    assert (s + [r])[..|s|] == s;
  }

  lemma FlattenSnoc(out: seq<BedLine>, r: BedLine)
    ensures FlattenBlocks(out + [r]) == FlattenBlocks(out) + r.blocks
    ensures FlattenQ(out + [r]) == FlattenQ(out) + QStarts(r)
    ensures TotalStats(out + [r]) == AddStats(TotalStats(out), StatsOf(r))
  {
    assert (out + [r])[..|out|] == out;
    TotalStatsSnoc(out, r);
  }

  lemma FragmentsSnoc(frags: seq<BedLine>, k: int)
    requires 0 <= k < |frags|
    ensures FragBlocks(frags[..k + 1]) == FragBlocks(frags[..k]) + [FragBlock(frags[k])]
    ensures SrcStarts(frags[..k + 1]) == SrcStarts(frags[..k]) + [frags[k].srcStart]
    ensures TotalStats(frags[..k + 1]) == AddStats(TotalStats(frags[..k]), StatsOf(frags[k]))
  {
    assert frags[..k + 1][..k] == frags[..k];
    assert frags[..k + 1] == frags[..k] + [frags[k]];
    TotalStatsSnoc(frags[..k], frags[k]);
  }

  /** One grouping step keeps the shape invariant. */
  lemma PlaceKeepsShape(frags: seq<BedLine>, k: int, out: seq<BedLine>, outPSL: bool, inStrand: char)
    requires 0 <= k < |frags| && AreFragments(frags, outPSL)
    requires ShapeInv(frags, k, out, outPSL, inStrand)
    ensures ShapeInv(frags, k + 1, Place(out, frags, k, outPSL, inStrand), outPSL, inStrand)
  {
    var f := frags[k];
    assert f in frags;
    var n := |out|;
    if Opens(out, frags, k, outPSL, inStrand) {
      assert (out + [f])[..n] == out;
      assert Place(out, frags, k, outPSL, inStrand) == out + [AddBlock(f, f, outPSL)];
      OpenKeepsShape(frags, k, out, outPSL, inStrand);
    } else {
      assert Place(out, frags, k, outPSL, inStrand) == out[..n - 1] + [AddBlock(out[n - 1], f, outPSL)];
      assert !(outPSL && IsDupe(frags, k));
      ExtendKeepsShape(frags, k, out, outPSL, inStrand);
    }
  }

  /** The step that opens a record adds a record of the assembled shape. */
  lemma OpenKeepsShape(frags: seq<BedLine>, k: int, out: seq<BedLine>, outPSL: bool, inStrand: char)
    requires 0 <= k < |frags| && IsFragment(frags[k], outPSL)
    requires ShapeInv(frags, k, out, outPSL, inStrand)
    ensures ShapeInv(frags, k + 1, out + [AddBlock(frags[k], frags[k], outPSL)], outPSL, inStrand)
  {
    var f := frags[k];
    var rec := AddBlock(f, f, outPSL);
    var r := out + [rec];
    OpenShape(f, outPSL, inStrand);
    forall j | 0 <= j < |r| ensures RecordShape(r[j], outPSL, inStrand) {
      if j < |out| { assert r[j] == out[j]; }
    }
    assert Last(r) == rec;
  }

  /** The step that extends the last record keeps it of the assembled shape. */
  lemma ExtendKeepsShape(frags: seq<BedLine>, k: int, out: seq<BedLine>, outPSL: bool, inStrand: char)
    requires 0 <= k < |frags| && IsFragment(frags[k], outPSL) && out != []
    requires ShapeInv(frags, k, out, outPSL, inStrand)
    requires Compatible(Last(out), frags[k], inStrand)
    requires outPSL ==> 0 < k && SrcEnd(frags[k - 1]) <= frags[k].srcStart
    ensures var n := |out|;
      ShapeInv(frags, k + 1, out[..n - 1] + [AddBlock(out[n - 1], frags[k], outPSL)], outPSL, inStrand)
  {
    var f := frags[k];
    var n := |out|;
    var rec := AddBlock(out[n - 1], f, outPSL);
    var r := out[..n - 1] + [rec];
    ExtendShape(out[n - 1], f, frags[k - 1], outPSL, inStrand);
    forall j | 0 <= j < |r| ensures RecordShape(r[j], outPSL, inStrand) {
      if j < n - 1 { assert r[j] == out[j]; }
    }
    assert Last(r) == rec;
  }

  /** One grouping step keeps the content invariant. */
  lemma PlaceKeepsContent(frags: seq<BedLine>, k: int, out: seq<BedLine>, outPSL: bool, inStrand: char)
    requires 0 <= k < |frags| && AreFragments(frags, outPSL)
    requires forall j :: 0 <= j < |out| ==> out[j].blocks != []
    requires outPSL ==> forall j :: 0 <= j < |out| ==> out[j].psl.Some?
    requires ContentInv(frags, k, out, outPSL)
    ensures ContentInv(frags, k + 1, Place(out, frags, k, outPSL, inStrand), outPSL)
  {
    var f := frags[k];
    assert f in frags;
    var n := |out|;
    if Opens(out, frags, k, outPSL, inStrand) {
      assert (out + [f])[..n] == out;
      assert Place(out, frags, k, outPSL, inStrand) == out + [AddBlock(f, f, outPSL)];
      OpenKeepsContent(frags, k, out, outPSL);
    } else {
      assert Place(out, frags, k, outPSL, inStrand) == out[..n - 1] + [AddBlock(out[n - 1], f, outPSL)];
      ExtendKeepsContent(frags, k, out, outPSL);
    }
  }

  /** The step that opens a record appends the fragment's block. */
  lemma OpenKeepsContent(frags: seq<BedLine>, k: int, out: seq<BedLine>, outPSL: bool)
    requires 0 <= k < |frags| && IsFragment(frags[k], outPSL)
    requires ContentInv(frags, k, out, outPSL)
    ensures ContentInv(frags, k + 1, out + [AddBlock(frags[k], frags[k], outPSL)], outPSL)
  {
    var f := frags[k];
    assert (out + [f])[..|out|] == out;
    FragmentsSnoc(frags, k);
    FlattenSnoc(out, AddBlock(f, f, outPSL));
  }

  /** The step that extends the last record appends the fragment's block to it. */
  lemma ExtendKeepsContent(frags: seq<BedLine>, k: int, out: seq<BedLine>, outPSL: bool)
    requires 0 <= k < |frags| && IsFragment(frags[k], outPSL) && out != []
    requires Last(out).blocks != [] && (outPSL ==> Last(out).psl.Some?)
    requires ContentInv(frags, k, out, outPSL)
    ensures var n := |out|;
      ContentInv(frags, k + 1, out[..n - 1] + [AddBlock(out[n - 1], frags[k], outPSL)], outPSL)
  {
    var f := frags[k];
    var n := |out|;
    var rec := AddBlock(out[n - 1], f, outPSL);
    var init := out[..n - 1];
    var last := out[n - 1];
    assert out == init + [last];
    FragmentsSnoc(frags, k);
    FlattenSnoc(init, rec);
    FlattenSnoc(init, last);
    assert rec.blocks == last.blocks + [FragBlock(f)];
    assert FlattenBlocks(init + [rec]) == FlattenBlocks(out) + [FragBlock(f)];
    if outPSL {
      assert QStarts(rec) == QStarts(last) + [f.srcStart];
      assert FlattenQ(init + [rec]) == FlattenQ(out) + [f.srcStart];
      assert StatsOf(rec) == AddStats(StatsOf(last), StatsOf(f));
    }
  }

  /** Grouping the first `k` fragments establishes the shape invariant. */
  lemma {:induction false} GroupUpToShape(frags: seq<BedLine>, k: int, outPSL: bool, inStrand: char)
    requires 0 <= k <= |frags| && AreFragments(frags, outPSL)
    ensures ShapeInv(frags, k, GroupUpTo(frags, k, outPSL, inStrand), outPSL, inStrand)
    decreases k
  {
    if k > 0 {
      var out := GroupUpTo(frags, k - 1, outPSL, inStrand);
      GroupUpToShape(frags, k - 1, outPSL, inStrand);
      PlaceKeepsShape(frags, k - 1, out, outPSL, inStrand);
      assert GroupUpTo(frags, k, outPSL, inStrand) == Place(out, frags, k - 1, outPSL, inStrand);
    } else {
      assert GroupUpTo(frags, k, outPSL, inStrand) == [];
    }
  }

  /** With PSL output on, every grouped record carries a PSL part. */
  lemma GroupUpToHasPsl(frags: seq<BedLine>, k: int, outPSL: bool, inStrand: char)
    requires 0 <= k <= |frags| && AreFragments(frags, outPSL)
    ensures outPSL ==> forall j :: 0 <= j < |GroupUpTo(frags, k, outPSL, inStrand)| ==>
      GroupUpTo(frags, k, outPSL, inStrand)[j].psl.Some?
  {
    var out := GroupUpTo(frags, k, outPSL, inStrand);
    GroupUpToShape(frags, k, outPSL, inStrand);
    forall j | 0 <= j < |out| ensures outPSL ==> out[j].psl.Some? {
      assert RecordShape(out[j], outPSL, inStrand);
    }
  }

  /** Every record carries the thick region `[thickStart, thickEnd)`. */
  ghost predicate ThickIs(out: seq<BedLine>, thickStart: int, thickEnd: int) {
    forall j :: 0 <= j < |out| ==> out[j].thickStart == thickStart && out[j].thickEnd == thickEnd
  }

  /** One grouping step copies or extends a record without touching its thick region. */
  lemma PlaceKeepsThick(out: seq<BedLine>, frags: seq<BedLine>, i: int, outPSL: bool, inStrand: char,
                        thickStart: int, thickEnd: int)
    requires 0 <= i < |frags| && forall k :: 0 <= k < |out| ==> out[k].blocks != []
    requires ThickIs(out, thickStart, thickEnd)
    requires frags[i].thickStart == thickStart && frags[i].thickEnd == thickEnd
    ensures ThickIs(Place(out, frags, i, outPSL, inStrand), thickStart, thickEnd)
  {
    var r := Place(out, frags, i, outPSL, inStrand);
    if Opens(out, frags, i, outPSL, inStrand) {
      assert (out + [frags[i]])[..|out|] == out;
      assert r == out + [AddBlock(frags[i], frags[i], outPSL)];
    } else {
      assert r == out[..|out| - 1] + [AddBlock(Last(out), frags[i], outPSL)];
    }
    forall j | 0 <= j < |r| ensures r[j].thickStart == thickStart && r[j].thickEnd == thickEnd {
      if j < |r| - 1 {
        assert r[j] == out[j];
      }
    }
  }

  /** Grouping never rewrites the thick region: when the first `k` fragments share one, so
      does every record built from them. */
  lemma {:induction false} GroupUpToKeepsThick(frags: seq<BedLine>, k: int, outPSL: bool, inStrand: char,
                                               thickStart: int, thickEnd: int)
    requires 0 <= k <= |frags| && ThickIs(frags[..k], thickStart, thickEnd)
    ensures ThickIs(GroupUpTo(frags, k, outPSL, inStrand), thickStart, thickEnd)
    decreases k
  {
    if k > 0 {
      assert frags[..k - 1] == frags[..k][..k - 1];
      GroupUpToKeepsThick(frags, k - 1, outPSL, inStrand, thickStart, thickEnd);
      assert frags[k - 1] == frags[..k][k - 1];
      PlaceKeepsThick(GroupUpTo(frags, k - 1, outPSL, inStrand), frags, k - 1, outPSL, inStrand, thickStart, thickEnd);
    }
  }

  /** Grouping the first `k` fragments establishes the content invariant. */
  lemma {:induction false} GroupUpToContent(frags: seq<BedLine>, k: int, outPSL: bool, inStrand: char)
    requires 0 <= k <= |frags| && AreFragments(frags, outPSL)
    ensures ContentInv(frags, k, GroupUpTo(frags, k, outPSL, inStrand), outPSL)
    decreases k
  {
    if k > 0 {
      var out := GroupUpTo(frags, k - 1, outPSL, inStrand);
      GroupUpToContent(frags, k - 1, outPSL, inStrand);
      GroupUpToHasPsl(frags, k - 1, outPSL, inStrand);
      PlaceKeepsContent(frags, k - 1, out, outPSL, inStrand);
      GroupUpToStep(frags, k, outPSL, inStrand);
    } else {
      assert GroupUpTo(frags, k, outPSL, inStrand) == [];
    }
  }

  /** A grouping step either opens exactly one new record, leaving all earlier records
      alone, or extends only the last record; either way the fragment's block ends the
      last record. */
  lemma PlaceFrame(out: seq<BedLine>, frags: seq<BedLine>, i: int, outPSL: bool, inStrand: char)
    requires 0 <= i < |frags|
    requires forall k :: 0 <= k < |out| ==> out[k].blocks != []
    ensures var r := Place(out, frags, i, outPSL, inStrand);
      && (Opens(out, frags, i, outPSL, inStrand) <==> |r| == |out| + 1)
      && (Opens(out, frags, i, outPSL, inStrand) ==> r[..|out|] == out && Last(r).srcStart == frags[i].srcStart)
      && (!Opens(out, frags, i, outPSL, inStrand) ==>
            && |r| == |out|
            && r[..|out| - 1] == out[..|out| - 1]
            && Last(r).blocks == Last(out).blocks + [FragBlock(frags[i])]
            && Last(r).srcStart == Last(out).srcStart)
      && Last(Last(r).blocks) == FragBlock(frags[i])
  {
    var n := |out|;
    if Opens(out, frags, i, outPSL, inStrand) {
      assert (out + [frags[i]])[..n] == out;
    }
  }

  // ---------------------------------------------------------------------------
  // Records as runs of fragments

  /** Record `rec` is built from exactly the fragments `run`: their blocks and, for PSL,
      their source starts as query starts and their statistics summed. */
  ghost predicate Segment(rec: BedLine, run: seq<BedLine>, outPSL: bool) {
    && rec.blocks == FragBlocks(run)
    && (outPSL ==>
          && rec.psl.Some?
          && rec.psl.value.qBlockStarts == SrcStarts(run)
          && StatsOf(rec) == TotalStats(run))
  }

  /** The runs concatenated in order. */
  function JoinRuns(runs: seq<seq<BedLine>>): seq<BedLine> {
    if runs == [] then [] else JoinRuns(runs[..|runs| - 1]) + Last(runs)
  }

  lemma JoinSnoc(runs: seq<seq<BedLine>>, run: seq<BedLine>)
    ensures JoinRuns(runs + [run]) == JoinRuns(runs) + run
  {
    assert (runs + [run])[..|runs|] == runs;
  }

  /** The runs after fragment `k` is placed: a new run when it opens a record, otherwise
      the last run grows by it. */
  function NextRuns(runs: seq<seq<BedLine>>, out: seq<BedLine>, frags: seq<BedLine>, k: int,
                    outPSL: bool, inStrand: char): (r: seq<seq<BedLine>>)
    requires 0 <= k < |frags| && |runs| == |out|
    requires forall j :: 0 <= j < |out| ==> out[j].blocks != []
    ensures |r| == if Opens(out, frags, k, outPSL, inStrand) then |runs| + 1 else |runs|
  {
    if Opens(out, frags, k, outPSL, inStrand) then runs + [[frags[k]]]
    else runs[..|runs| - 1] + [Last(runs) + [frags[k]]]
  }

  /** The fragments behind each record after the first `k` fragments are grouped. */
  ghost function Runs(frags: seq<BedLine>, k: int, outPSL: bool, inStrand: char): (runs: seq<seq<BedLine>>)
    requires 0 <= k <= |frags|
    ensures |runs| == |GroupUpTo(frags, k, outPSL, inStrand)|
    decreases k
  {
    if k == 0 then []
    else
      var out := GroupUpTo(frags, k - 1, outPSL, inStrand);
      PlaceFrame(out, frags, k - 1, outPSL, inStrand);
      NextRuns(Runs(frags, k - 1, outPSL, inStrand), out, frags, k - 1, outPSL, inStrand)
  }

  /** The fragments behind each record of `Group`. */
  ghost function GroupRuns(frags: seq<BedLine>, outPSL: bool, inStrand: char): seq<seq<BedLine>> {
    Runs(frags, |frags|, outPSL, inStrand)
  }

  /** Partition part of the grouping invariant: the first `k` fragments split, in order,
      into non-empty runs, one per record, each record built from its own run. */
  ghost predicate RunsInv(frags: seq<BedLine>, k: int, out: seq<BedLine>, runs: seq<seq<BedLine>>, outPSL: bool)
    requires 0 <= k <= |frags|
  {
    && |runs| == |out|
    && JoinRuns(runs) == frags[..k]
    && forall j :: 0 <= j < |out| ==> runs[j] != [] && Segment(out[j], runs[j], outPSL)
  }

  /** A record opened by a fragment is built from that fragment alone. */
  lemma OpenRun(f: BedLine, outPSL: bool)
    requires IsFragment(f, outPSL)
    ensures Segment(AddBlock(f, f, outPSL), [f], outPSL)
  {
    assert [f][..0] == [];
    if outPSL {
      Sorting.SumOfSingle(f, MatchesOf);
      Sorting.SumOfSingle(f, MisMatchesOf);
      Sorting.SumOfSingle(f, RepMatchesOf);
      Sorting.SumOfSingle(f, NCountOf);
    }
  }

  /** Extending a record by a fragment extends its run by that fragment; for PSL the
      fragment's statistics are added to this record only. */
  lemma ExtendRun(rec: BedLine, run: seq<BedLine>, f: BedLine, outPSL: bool)
    requires run != [] && Segment(rec, run, outPSL) && IsFragment(f, outPSL)
    ensures Segment(AddBlock(rec, f, outPSL), run + [f], outPSL)
  {
    var run' := run + [f];
    assert run'[..|run|] == run && Last(run') == f;
    assert FragBlocks(run') == FragBlocks(run) + [FragBlock(f)];
    assert rec.blocks != [];
    if outPSL {
      TotalStatsSnoc(run, f);
    }
  }

  /** One grouping step keeps the partition invariant. */
  lemma PlaceKeepsRuns(frags: seq<BedLine>, k: int, out: seq<BedLine>, runs: seq<seq<BedLine>>,
                       outPSL: bool, inStrand: char)
    requires 0 <= k < |frags| && AreFragments(frags, outPSL)
    requires forall j :: 0 <= j < |out| ==> out[j].blocks != []
    requires RunsInv(frags, k, out, runs, outPSL)
    ensures RunsInv(frags, k + 1, Place(out, frags, k, outPSL, inStrand),
                    NextRuns(runs, out, frags, k, outPSL, inStrand), outPSL)
  {
    var f := frags[k];
    assert f in frags;
    var n := |out|;
    assert frags[..k + 1] == frags[..k] + [f];
    if Opens(out, frags, k, outPSL, inStrand) {
      assert (out + [f])[..n] == out;
      assert Place(out, frags, k, outPSL, inStrand) == out + [AddBlock(f, f, outPSL)];
      OpenKeepsRuns(frags, k, out, runs, outPSL);
    } else {
      assert Place(out, frags, k, outPSL, inStrand) == out[..n - 1] + [AddBlock(out[n - 1], f, outPSL)];
      ExtendKeepsRuns(frags, k, out, runs, outPSL);
    }
  }

  /** The step that opens a record adds a one-fragment run. */
  lemma OpenKeepsRuns(frags: seq<BedLine>, k: int, out: seq<BedLine>, runs: seq<seq<BedLine>>, outPSL: bool)
    requires 0 <= k < |frags| && IsFragment(frags[k], outPSL)
    requires RunsInv(frags, k, out, runs, outPSL)
    ensures RunsInv(frags, k + 1, out + [AddBlock(frags[k], frags[k], outPSL)], runs + [[frags[k]]], outPSL)
  {
    var f := frags[k];
    var r := out + [AddBlock(f, f, outPSL)];
    var rs := runs + [[f]];
    var n := |out|;
    assert frags[..k + 1] == frags[..k] + [f];
    OpenRun(f, outPSL);
    JoinSnoc(runs, [f]);
    forall j | 0 <= j < n + 1 ensures rs[j] != [] && Segment(r[j], rs[j], outPSL) {
      if j < n {
        assert r[j] == out[j] && rs[j] == runs[j];
      }
    }
  }

  /** The step that extends the last record grows the last run. */
  lemma ExtendKeepsRuns(frags: seq<BedLine>, k: int, out: seq<BedLine>, runs: seq<seq<BedLine>>, outPSL: bool)
    requires 0 <= k < |frags| && IsFragment(frags[k], outPSL) && out != []
    requires RunsInv(frags, k, out, runs, outPSL)
    ensures var n := |out|;
      RunsInv(frags, k + 1, out[..n - 1] + [AddBlock(out[n - 1], frags[k], outPSL)],
              runs[..n - 1] + [Last(runs) + [frags[k]]], outPSL)
  {
    var f := frags[k];
    var n := |out|;
    var init := runs[..n - 1];
    var r := out[..n - 1] + [AddBlock(out[n - 1], f, outPSL)];
    var rs := init + [runs[n - 1] + [f]];
    assert frags[..k + 1] == frags[..k] + [f];
    ExtendRun(out[n - 1], runs[n - 1], f, outPSL);
    assert runs == init + [runs[n - 1]];
    JoinSnoc(init, runs[n - 1]);
    JoinSnoc(init, runs[n - 1] + [f]);
    forall j | 0 <= j < n ensures rs[j] != [] && Segment(r[j], rs[j], outPSL) {
      if j < n - 1 {
        assert r[j] == out[j] && rs[j] == runs[j];
      }
    }
  }

  /** Grouping the first `k` fragments establishes the partition invariant. */
  lemma {:induction false} GroupUpToRuns(frags: seq<BedLine>, k: int, outPSL: bool, inStrand: char)
    requires 0 <= k <= |frags| && AreFragments(frags, outPSL)
    ensures RunsInv(frags, k, GroupUpTo(frags, k, outPSL, inStrand), Runs(frags, k, outPSL, inStrand), outPSL)
    decreases k
  {
    if k > 0 {
      var out := GroupUpTo(frags, k - 1, outPSL, inStrand);
      var runs := Runs(frags, k - 1, outPSL, inStrand);
      GroupUpToRuns(frags, k - 1, outPSL, inStrand);
      PlaceKeepsRuns(frags, k - 1, out, runs, outPSL, inStrand);
      GroupUpToStep(frags, k, outPSL, inStrand);
      assert Runs(frags, k, outPSL, inStrand) == NextRuns(runs, out, frags, k - 1, outPSL, inStrand);
    } else {
      assert frags[..0] == [];
    }
  }

  /** Grouping all fragments: every record has the assembled shape, and the records hold
      exactly one block per fragment, in fragment order; for PSL output they also hold one
      query start per fragment and the fragments' statistics summed. */
  lemma GroupTheorem(frags: seq<BedLine>, outPSL: bool, inStrand: char)
    requires AreFragments(frags, outPSL)
    ensures var out := Group(frags, outPSL, inStrand);
      && (forall j :: 0 <= j < |out| ==> RecordShape(out[j], outPSL, inStrand))
      && (frags != [] <==> out != [])
      && FlattenBlocks(out) == FragBlocks(frags)
      && (outPSL ==> FlattenQ(out) == SrcStarts(frags) && TotalStats(out) == TotalStats(frags))
    ensures var out := Group(frags, outPSL, inStrand);
      var runs := GroupRuns(frags, outPSL, inStrand);
      && |runs| == |out|
      && JoinRuns(runs) == frags
      && forall j :: 0 <= j < |out| ==> runs[j] != [] && Segment(out[j], runs[j], outPSL)
  {
    GroupRunsTheorem(frags, outPSL, inStrand);
    GroupUpToShape(frags, |frags|, outPSL, inStrand);
    GroupUpToContent(frags, |frags|, outPSL, inStrand);
    assert frags[..|frags|] == frags;
  }

  /** The partition half of `GroupTheorem` on its own. */
  lemma GroupRunsTheorem(frags: seq<BedLine>, outPSL: bool, inStrand: char)
    requires AreFragments(frags, outPSL)
    ensures var out := Group(frags, outPSL, inStrand);
      var runs := GroupRuns(frags, outPSL, inStrand);
      && |runs| == |out|
      && JoinRuns(runs) == frags
      && forall j :: 0 <= j < |out| ==> runs[j] != [] && Segment(out[j], runs[j], outPSL)
  {
    GroupUpToRuns(frags, |frags|, outPSL, inStrand);
    assert frags[..|frags|] == frags;
  }

  /** The last record's source start is the source start of one of the fragments seen. */
  lemma LastRecordSource(frags: seq<BedLine>, k: int, outPSL: bool, inStrand: char)
    requires 0 < k <= |frags|
    ensures exists j :: 0 <= j < k && Last(GroupUpTo(frags, k, outPSL, inStrand)).srcStart == frags[j].srcStart
  {
    var j := LastSourceIndex(frags, k, outPSL, inStrand);
  }

  /** The fragment whose source start the last record of the first `k` carries. */
  ghost function LastSourceIndex(frags: seq<BedLine>, k: int, outPSL: bool, inStrand: char): (j: int)
    requires 0 < k <= |frags|
    ensures 0 <= j < k && Last(GroupUpTo(frags, k, outPSL, inStrand)).srcStart == frags[j].srcStart
    decreases k
  {
    var out := GroupUpTo(frags, k - 1, outPSL, inStrand);
    GroupUpToStep(frags, k, outPSL, inStrand);
    PlaceSource(out, frags, k - 1, outPSL, inStrand);
    if Last(GroupUpTo(frags, k, outPSL, inStrand)).srcStart == frags[k - 1].srcStart then k - 1
    else LastSourceIndex(frags, k - 1, outPSL, inStrand)
  }

  /** One more fragment is one more grouping step. */
  lemma GroupUpToStep(frags: seq<BedLine>, k: int, outPSL: bool, inStrand: char)
    requires 0 < k <= |frags|
    ensures GroupUpTo(frags, k, outPSL, inStrand)
         == Place(GroupUpTo(frags, k - 1, outPSL, inStrand), frags, k - 1, outPSL, inStrand)
  {
  }

  /** The last record after a step starts in source where the fragment does or where the
      last record before it did. */
  lemma PlaceSource(out: seq<BedLine>, frags: seq<BedLine>, i: int, outPSL: bool, inStrand: char)
    requires 0 <= i < |frags|
    requires forall k :: 0 <= k < |out| ==> out[k].blocks != []
    ensures var r := Place(out, frags, i, outPSL, inStrand);
      Last(r).srcStart == frags[i].srcStart || (out != [] && Last(r).srcStart == Last(out).srcStart)
  {
    PlaceFrame(out, frags, i, outPSL, inStrand);
  }

  /** With fragments sorted by source start, each fragment starts in source no earlier than
      the record it is compared with (the ordering `compatible` asserts). */
  lemma CompatibleSeesLaterSource(frags: seq<BedLine>, k: int, outPSL: bool, inStrand: char)
    requires Sorting.SortedByKey(frags, SrcStartOf)
    requires 0 < k < |frags|
    ensures Last(GroupUpTo(frags, k, outPSL, inStrand)).srcStart <= frags[k].srcStart
  {
    LastRecordSource(frags, k, outPSL, inStrand);
    var j :| 0 <= j < k && Last(GroupUpTo(frags, k, outPSL, inStrand)).srcStart == frags[j].srcStart;
    assert SrcStartOf(frags[j]) <= SrcStartOf(frags[k]);
  }
}

=== FILE: bed.dfy ===
/** The interval records of the liftover core: BED lines, their blocks and the PSL
    statistics carried alongside them, plus the orderings the pipeline keeps on block lists. */
module Bed {
  import opened Wrappers

  /** Marker for "no index yet" (`NULL_INDEX`, minus one in hal). */
  const NULL_INDEX: int := -1

  /** `numeric_limits<hal_index_t>::max()`, the start value of a minimum search. */
  const INDEX_MAX: int := 0x7FFF_FFFF_FFFF_FFFF

  /** A sub-interval of a record: absolute during assembly, record-relative afterwards. */
  datatype Block = Block(start: int, length: int)

  function BlockEnd(b: Block): int {
    b.start + b.length
  }

  /** Match statistics of a PSL alignment. */
  datatype Stats = Stats(matches: int, misMatches: int, repMatches: int, nCount: int)

  const NoStats: Stats := Stats(0, 0, 0, 0)

  function AddStats(a: Stats, b: Stats): Stats {
    Stats(a.matches + b.matches, a.misMatches + b.misMatches,
          a.repMatches + b.repMatches, a.nCount + b.nCount)
  }

  /** The PSL part of a record: statistics, query block starts parallel to the blocks,
      the query strand and span end, and the four insert counters. */
  datatype PslInfo = PslInfo(
    stats: Stats,
    qBlockStarts: seq<int>,
    qStrand: char,
    qEnd: int,
    qNumInsert: int,
    qBaseInsert: int,
    tNumInsert: int,
    tBaseInsert: int)

  /** One BED line. `bedType` is the number of BED columns present; `srcStart` is the
      source position a mapped record came from; `psl` is present when PSL output is on. */
  datatype BedLine = BedLine(
    chrName: string,
    start: int,
    end: int,
    strand: char,
    bedType: int,
    thickStart: int,
    thickEnd: int,
    blocks: seq<Block>,
    srcStart: int,
    psl: Option<PslInfo>)

  /** Sort key of `BedLineSrcLess`. */
  function SrcStartOf(b: BedLine): int {
    b.srcStart
  }

  /** Sort key of block ordering. */
  function BlockStartOf(b: Block): int {
    b.start
  }

  function Min(a: int, b: int): int {
    if a <= b then a else b
  }

  function Max(a: int, b: int): int {
    if a >= b then a else b
  }

  function Last<T>(s: seq<T>): T
    requires s != []
  {
    s[|s| - 1]
  }

  /** The query block starts of a record, empty when it carries no PSL part. */
  function QStarts(r: BedLine): seq<int> {
    if r.psl.Some? then r.psl.value.qBlockStarts else []
  }

  ghost predicate PositiveLengths(bs: seq<Block>) {
    forall j :: 0 <= j < |bs| ==> bs[j].length > 0
  }

  /** Each block ends at or before any later block starts. */
  ghost predicate Ascending(bs: seq<Block>) {
    forall i, j :: 0 <= i < j < |bs| ==> BlockEnd(bs[i]) <= bs[j].start
  }

  /** Each block starts at or after any later block ends. */
  ghost predicate Descending(bs: seq<Block>) {
    forall i, j :: 0 <= i < j < |bs| ==> BlockEnd(bs[j]) <= bs[i].start
  }

  /** Query blocks (starts `q`, lengths of `bs`) ascend without overlap. */
  ghost predicate QAscending(q: seq<int>, bs: seq<Block>)
    requires |q| == |bs|
  {
    forall i, j :: 0 <= i < j < |bs| ==> q[i] + bs[i].length <= q[j]
  }

  /** Query blocks (starts `q`, lengths of `bs`) descend without overlap. */
  ghost predicate QDescending(q: seq<int>, bs: seq<Block>)
    requires |q| == |bs|
  {
    forall i, j :: 0 <= i < j < |bs| ==> q[j] + bs[j].length <= q[i]
  }

  /** Total number of bases covered by the blocks. */
  function SumLengths(bs: seq<Block>): int {
    if bs == [] then 0 else SumLengths(bs[..|bs| - 1]) + Last(bs).length
  }

  function Reverse<T>(s: seq<T>): (r: seq<T>)
    ensures |r| == |s|
    ensures forall i :: 0 <= i < |s| ==> r[i] == s[|s| - 1 - i]
  {
    seq(|s|, i requires 0 <= i < |s| => s[|s| - 1 - i])
  }

  lemma ReverseReverse<T>(s: seq<T>)
    ensures Reverse(Reverse(s)) == s
  {
  }

  /** Reversal swaps the two block orders and keeps the lengths positive. */
  lemma ReverseOrders(bs: seq<Block>)
    ensures Ascending(bs) ==> Descending(Reverse(bs))
    ensures Descending(bs) ==> Ascending(Reverse(bs))
    ensures PositiveLengths(bs) ==> PositiveLengths(Reverse(bs))
  {
    var r := Reverse(bs);
    var n := |bs|;
    if Ascending(bs) {
      forall i, j | 0 <= i < j < n ensures BlockEnd(r[j]) <= r[i].start {
        assert r[j] == bs[n - 1 - j] && r[i] == bs[n - 1 - i];
      }
    }
    if Descending(bs) {
      forall i, j | 0 <= i < j < n ensures BlockEnd(r[i]) <= r[j].start {
        assert r[j] == bs[n - 1 - j] && r[i] == bs[n - 1 - i];
      }
    }
  }

  /** Reversal swaps the two query orders. */
  lemma ReverseQOrders(q: seq<int>, bs: seq<Block>)
    requires |q| == |bs|
    ensures QAscending(q, bs) ==> QDescending(Reverse(q), Reverse(bs))
    ensures QDescending(q, bs) ==> QAscending(Reverse(q), Reverse(bs))
  {
    var rq, rb := Reverse(q), Reverse(bs);
    var n := |bs|;
    if QAscending(q, bs) {
      forall i, j | 0 <= i < j < n ensures rq[j] + rb[j].length <= rq[i] {
        assert rq[j] == q[n - 1 - j] && rb[j] == bs[n - 1 - j] && rq[i] == q[n - 1 - i];
      }
    }
    if QDescending(q, bs) {
      forall i, j | 0 <= i < j < n ensures rq[i] + rb[i].length <= rq[j] {
        assert rq[j] == q[n - 1 - j] && rb[i] == bs[n - 1 - i] && rq[i] == q[n - 1 - i];
      }
    }
  }

  /** Every block of the record lies inside `[start, end)`. */
  ghost predicate Covers(r: BedLine) {
    forall j :: 0 <= j < |r.blocks| ==> r.start <= r.blocks[j].start && BlockEnd(r.blocks[j]) <= r.end
  }

  /** Some block starts at `start` and some block ends at `end`. */
  ghost predicate Tight(r: BedLine) {
    && (exists j :: 0 <= j < |r.blocks| && r.blocks[j].start == r.start)
    && (exists j :: 0 <= j < |r.blocks| && BlockEnd(r.blocks[j]) == r.end)
  }

  /** The record's extent is exactly the union hull of its blocks. */
  ghost predicate IsHull(r: BedLine) {
    Covers(r) && Tight(r)
  }
}

=== FILE: cleanup.dfy ===
/** Post-processing of the lifted records (`cleanResults` in
    liftover/impl/halLiftover.cpp): thick region, removal of empty block records, and the
    PSL query span derived from the query block starts. */
module Cleanup {
  import opened Wrappers
  import opened Bed

  /** Smallest query start, searching from `INDEX_MAX`. */
  function MinQStart(q: seq<int>): (m: int)
    ensures forall j :: 0 <= j < |q| ==> m <= q[j]
    ensures m <= INDEX_MAX
    ensures m == INDEX_MAX || exists j :: 0 <= j < |q| && q[j] == m
  {
    if q == [] then INDEX_MAX
    else
      var m0 := MinQStart(q[..|q| - 1]);
      assert forall j :: 0 <= j < |q| - 1 ==> q[..|q| - 1][j] == q[j];
      Min(m0, Last(q))
  }

  /** Largest query end `q[j] + bs[j].length`, searching from 0. */
  function MaxQEnd(q: seq<int>, bs: seq<Block>): (m: int)
    requires |q| <= |bs|
    ensures forall j :: 0 <= j < |q| ==> q[j] + bs[j].length <= m
    ensures m >= 0
    ensures m == 0 || exists j :: 0 <= j < |q| && q[j] + bs[j].length == m
  {
    if q == [] then 0
    else
      var n := |q|;
      var m0 := MaxQEnd(q[..n - 1], bs);
      assert forall j :: 0 <= j < n - 1 ==> q[..n - 1][j] == q[j];
      Max(m0, q[n - 1] + bs[n - 1].length)
  }

  /** Whether the input line declared a thick region. */
  predicate HasThick(line: BedLine) {
    line.thickStart != 0 || line.thickEnd != 0
  }

  /** Whether `cleanResults` keeps a record: only block-typed empty records are erased. */
  predicate Keep(r: BedLine, line: BedLine) {
    line.bedType <= 9 || r.blocks != []
  }

  /** The records `cleanResults` keeps, in their original order. */
  function Kept(outs: seq<BedLine>, line: BedLine): (ks: seq<BedLine>)
    ensures forall r :: r in ks <==> r in outs && Keep(r, line)
    ensures |ks| <= |outs|
    ensures (forall r :: r in outs ==> Keep(r, line)) ==> ks == outs
  {
    if outs == [] then []
    else
      var init := outs[..|outs| - 1];
      assert outs == init + [Last(outs)];
      if Keep(Last(outs), line) then Kept(init, line) + [Last(outs)] else Kept(init, line)
  }

  /** The fix-ups `cleanResults` applies to a kept record. */
  function FixRecord(r: BedLine, line: BedLine, outPSL: bool): (c: BedLine)
    requires outPSL && line.bedType > 9 && r.blocks != [] ==>
      r.psl.Some? && |r.psl.value.qBlockStarts| == |r.blocks|
    ensures c.blocks == r.blocks && c.start == r.start && c.end == r.end && c.strand == r.strand
    ensures c.chrName == r.chrName && c.bedType == r.bedType
    ensures line.bedType > 6 && HasThick(line) ==> c.thickStart == c.start && c.thickEnd == c.end
    ensures !(line.bedType > 6 && HasThick(line)) ==> c.thickStart == r.thickStart && c.thickEnd == r.thickEnd
    ensures !(outPSL && line.bedType > 9 && r.blocks != []) ==> c.psl == r.psl && c.srcStart == r.srcStart
    ensures outPSL && line.bedType > 9 && r.blocks != [] ==>
      var q := r.psl.value.qBlockStarts;
      && c.psl.Some?
      && c.psl.value.(qEnd := r.psl.value.qEnd) == r.psl.value
      && (forall j :: 0 <= j < |q| ==> c.srcStart <= q[j] && q[j] + r.blocks[j].length <= c.psl.value.qEnd)
      && (c.srcStart == INDEX_MAX || exists j :: 0 <= j < |q| && q[j] == c.srcStart)
      && (c.psl.value.qEnd == 0 || exists j :: 0 <= j < |q| && q[j] + r.blocks[j].length == c.psl.value.qEnd)
  {
    var r1 := if line.bedType > 6 && HasThick(line) then r.(thickStart := r.start, thickEnd := r.end) else r;
    if outPSL && line.bedType > 9 && r.blocks != [] then
      var p := r1.psl.value;
      r1.(srcStart := MinQStart(p.qBlockStarts), psl := Some(p.(qEnd := MaxQEnd(p.qBlockStarts, r1.blocks))))
    else r1
  }

  /** `cleanResults`: fixes every record and, for block-typed input, erases the records
      left with no blocks; the survivors keep their order. */
  function CleanResults(outs: seq<BedLine>, line: BedLine, outPSL: bool): (res: seq<BedLine>)
    requires forall r :: r in outs && outPSL && line.bedType > 9 && r.blocks != [] ==>
      r.psl.Some? && |r.psl.value.qBlockStarts| == |r.blocks|
    ensures |res| == |Kept(outs, line)| <= |outs|
    ensures forall j :: 0 <= j < |res| ==> res[j] == FixRecord(Kept(outs, line)[j], line, outPSL)
    ensures line.bedType > 9 ==> forall j :: 0 <= j < |res| ==> res[j].blocks != []
    ensures (forall r :: r in outs ==> Keep(r, line)) ==>
      |res| == |outs| && forall j :: 0 <= j < |outs| ==> res[j] == FixRecord(outs[j], line, outPSL)
    ensures forall c :: c in res ==> exists r :: r in outs && Keep(r, line) && c == FixRecord(r, line, outPSL)
    ensures forall r :: r in outs && Keep(r, line) ==> FixRecord(r, line, outPSL) in res
  {
    var ks := Kept(outs, line);
    var res := seq(|ks|, j requires 0 <= j < |ks| => FixRecord(ks[j], line, outPSL));
    FixedKeptNonEmpty(outs, line, outPSL, res);
    FixedKeptAll(outs, line, outPSL, res);
    FixedKeptSound(outs, line, outPSL, res);
    FixedKeptComplete(outs, line, outPSL, res);
    res
  }

  /** The kept records fixed up one for one, in order. */
  ghost predicate FixedKept(outs: seq<BedLine>, line: BedLine, outPSL: bool, res: seq<BedLine>)
    requires forall r :: r in outs && outPSL && line.bedType > 9 && r.blocks != [] ==>
      r.psl.Some? && |r.psl.value.qBlockStarts| == |r.blocks|
  {
    |res| == |Kept(outs, line)| && forall j :: 0 <= j < |res| ==> res[j] == FixRecord(Kept(outs, line)[j], line, outPSL)
  }

  lemma FixedKeptNonEmpty(outs: seq<BedLine>, line: BedLine, outPSL: bool, res: seq<BedLine>)
    requires forall r :: r in outs && outPSL && line.bedType > 9 && r.blocks != [] ==>
      r.psl.Some? && |r.psl.value.qBlockStarts| == |r.blocks|
    requires FixedKept(outs, line, outPSL, res)
    ensures line.bedType > 9 ==> forall j :: 0 <= j < |res| ==> res[j].blocks != []
  {
    var ks := Kept(outs, line);
    forall j | 0 <= j < |res| ensures line.bedType > 9 ==> res[j].blocks != [] {
      assert ks[j] in ks;
    }
  }

  lemma FixedKeptAll(outs: seq<BedLine>, line: BedLine, outPSL: bool, res: seq<BedLine>)
    requires forall r :: r in outs && outPSL && line.bedType > 9 && r.blocks != [] ==>
      r.psl.Some? && |r.psl.value.qBlockStarts| == |r.blocks|
    requires FixedKept(outs, line, outPSL, res)
    ensures (forall r :: r in outs ==> Keep(r, line)) ==>
      |res| == |outs| && forall j :: 0 <= j < |outs| ==> res[j] == FixRecord(outs[j], line, outPSL)
  {
  }

  lemma FixedKeptSound(outs: seq<BedLine>, line: BedLine, outPSL: bool, res: seq<BedLine>)
    requires forall r :: r in outs && outPSL && line.bedType > 9 && r.blocks != [] ==>
      r.psl.Some? && |r.psl.value.qBlockStarts| == |r.blocks|
    requires FixedKept(outs, line, outPSL, res)
    ensures forall c :: c in res ==> exists r :: r in outs && Keep(r, line) && c == FixRecord(r, line, outPSL)
  {
    var ks := Kept(outs, line);
    forall c | c in res ensures exists r :: r in outs && Keep(r, line) && c == FixRecord(r, line, outPSL) {
      var j :| 0 <= j < |res| && res[j] == c;
      assert ks[j] in ks;
    }
  }

  lemma FixedKeptComplete(outs: seq<BedLine>, line: BedLine, outPSL: bool, res: seq<BedLine>)
    requires forall r :: r in outs && outPSL && line.bedType > 9 && r.blocks != [] ==>
      r.psl.Some? && |r.psl.value.qBlockStarts| == |r.blocks|
    requires FixedKept(outs, line, outPSL, res)
    ensures forall r :: r in outs && Keep(r, line) ==> FixRecord(r, line, outPSL) in res
  {
    var ks := Kept(outs, line);
    forall r | r in outs && Keep(r, line) ensures FixRecord(r, line, outPSL) in res {
      var j :| 0 <= j < |ks| && ks[j] == r;
      assert res[j] == FixRecord(r, line, outPSL);
    }
  }

  /** Coordinates a `hal_index_t` query position can take. */
  ghost predicate InIndexRange(q: seq<int>) {
    forall j :: 0 <= j < |q| ==> 0 <= q[j] <= INDEX_MAX
  }

  /** On ascending query blocks the query extent runs from the first start to the last end. */
  lemma AscendingQueryExtent(q: seq<int>, bs: seq<Block>)
    requires |q| == |bs| && bs != [] && PositiveLengths(bs)
    requires QAscending(q, bs) && InIndexRange(q)
    ensures MinQStart(q) == q[0]
    ensures MaxQEnd(q, bs) == q[|q| - 1] + Last(bs).length
  {
    var n := |q|;
    forall j | 0 < j < n ensures q[0] <= q[j] {
      assert q[0] + bs[0].length <= q[j];
    }
    forall j | 0 <= j < n - 1 ensures q[j] + bs[j].length <= q[n - 1] + bs[n - 1].length {
      assert q[j] + bs[j].length <= q[n - 1];
    }
  }

  /** On descending query blocks the query extent runs from the last start to the first end. */
  lemma DescendingQueryExtent(q: seq<int>, bs: seq<Block>)
    requires |q| == |bs| && bs != [] && PositiveLengths(bs)
    requires QDescending(q, bs) && InIndexRange(q)
    ensures MinQStart(q) == q[|q| - 1]
    ensures MaxQEnd(q, bs) == q[0] + bs[0].length
  {
    var n := |q|;
    forall j | 0 <= j < n - 1 ensures q[n - 1] <= q[j] {
      assert q[n - 1] + bs[n - 1].length <= q[j];
    }
    forall j | 0 < j < n ensures q[j] + bs[j].length <= q[0] + bs[0].length {
      assert q[j] + bs[j].length <= q[0];
    }
  }
}

=== FILE: clparser.dfy ===
/** The option registry of hal's command-line parser (`addOption`, `getOption`,
    `getArgument`, `getOptionAlt`, `getFlagAlt`, `get` and the string specialisation of
    `convertFromString` in api/inc/halCLParser.h), for string-typed values. Thrown
    `hal_exception`s become `Failure`s. */
module CLParser {
  import opened Wrappers

  /** An option or flag as stored under its name. */
  datatype Opt = Opt(description: string, defaultValue: string, value: string, flag: bool, specified: bool)

  /** A positional argument. */
  datatype Arg = Arg(name: string, description: string, value: string, specified: bool)

  /** The registry: options and flags by name, positional arguments in order. */
  datatype Parser = Parser(options: map<string, Opt>, args: seq<Arg>)

  datatype ParseError =
    | AlreadyPresent(name: string)
    | OptionNotRecognized(name: string)
    | FlagNotRecognized(name: string)
    | ArgumentNotRecognized(name: string)
    | NameNotRecognized(name: string)

  /** `hasOption`: registered and not a flag. */
  predicate HasOption(p: Parser, name: string) {
    name in p.options && !p.options[name].flag
  }

  /** `hasFlag`: registered as a flag. */
  predicate HasFlag(p: Parser, name: string) {
    name in p.options && p.options[name].flag
  }

  /** `hasArgument`: some positional argument has this name. */
  predicate HasArgument(p: Parser, name: string) {
    exists i :: 0 <= i < |p.args| && p.args[i].name == name
  }

  /** `specifiedOption`: an option that was given on the command line. */
  predicate SpecifiedOption(p: Parser, name: string) {
    HasOption(p, name) && p.options[name].specified
  }

  /** `specifiedFlag`: a flag that was given on the command line. */
  predicate SpecifiedFlag(p: Parser, name: string) {
    HasFlag(p, name) && p.options[name].specified
  }

  /** No name is both an option or flag and a positional argument. */
  ghost predicate NamesDistinct(p: Parser) {
    forall i :: 0 <= i < |p.args| ==> p.args[i].name !in p.options
  }

  /** `convertFromString<std::string>`: the token itself, spaces included. */
  function ConvertString(token: string): (r: string)
    ensures |r| == |token| && forall i :: 0 <= i < |token| ==> r[i] == token[i]
  {
    token
  }

  // ---------------------------------------------------------------------------
  // addOption
  // ---------------------------------------------------------------------------

  /** `addOption`: registers `name` with its default as current value, not a flag and not
      specified; refused when the name is taken by an option, a flag or an argument. */
  function AddOption(p: Parser, name: string, description: string, defaultValue: string): (r: Result<Parser, ParseError>)
    ensures r.Failure? <==> HasOption(p, name) || HasFlag(p, name) || HasArgument(p, name)
    ensures r.Failure? ==> r.error == AlreadyPresent(name)
    ensures r.Success? ==>
      && r.value.args == p.args
      && name in r.value.options
      && r.value.options[name].value == r.value.options[name].defaultValue == defaultValue
      && !r.value.options[name].flag && !r.value.options[name].specified
      && r.value.options.Keys == p.options.Keys + {name}
      && forall n :: n in p.options ==> r.value.options[n] == p.options[n]
  {
    if HasOption(p, name) || HasFlag(p, name) || HasArgument(p, name) then
      Failure(AlreadyPresent(name))
    else
      Success(p.(options := p.options[name := Opt(description, defaultValue, defaultValue, false, false)]))
  }

  /** Adding an option keeps every name resolving to a single kind. */
  lemma AddOptionKeepsNamesDistinct(p: Parser, name: string, description: string, defaultValue: string)
    requires NamesDistinct(p)
    requires AddOption(p, name, description, defaultValue).Success?
    ensures NamesDistinct(AddOption(p, name, description, defaultValue).value)
  {
    var q := AddOption(p, name, description, defaultValue).value;
    forall i | 0 <= i < |q.args| ensures q.args[i].name !in q.options {
      assert p.args[i].name != name;
    }
  }

  // ---------------------------------------------------------------------------
  // Lookups
  // ---------------------------------------------------------------------------

  /** `getOption`: the current value of an option; a missing name or a flag is refused. */
  function GetOption(p: Parser, name: string): (r: Result<string, ParseError>)
    ensures r.Success? <==> HasOption(p, name)
    ensures r.Success? ==> r.value == p.options[name].value
    ensures r.Failure? ==> r.error == OptionNotRecognized(name)
  {
    if name !in p.options || p.options[name].flag then Failure(OptionNotRecognized(name))
    else Success(ConvertString(p.options[name].value))
  }

  /** `getFlag` (its conversion to `bool` is not modelled): the stored value of a flag. */
  function GetFlag(p: Parser, name: string): (r: Result<string, ParseError>)
    ensures r.Success? <==> HasFlag(p, name)
    ensures r.Success? ==> r.value == p.options[name].value
  {
    if HasFlag(p, name) then Success(p.options[name].value) else Failure(FlagNotRecognized(name))
  }

  /** `i` is the first positional argument called `name`. */
  ghost predicate FirstArg(args: seq<Arg>, name: string, i: int) {
    && 0 <= i < |args|
    && args[i].name == name
    && forall k :: 0 <= k < i ==> args[k].name != name
  }

  /** The position of the first argument called `name`, if any. */
  function ArgIndex(args: seq<Arg>, name: string): (r: Option<nat>)
    ensures r.Some? ==> FirstArg(args, name, r.value)
    ensures r.None? <==> forall k :: 0 <= k < |args| ==> args[k].name != name
  {
    if args == [] then None
    else if args[0].name == name then Some(0)
    else
      match ArgIndex(args[1..], name)
      case None => None
      case Some(k) => Some(k + 1)
  }

  /** `getArgument`: scans the positional arguments in order and returns the value of the
      first one called `name`; refused when there is none. */
  method GetArgument(p: Parser, name: string) returns (r: Result<string, ParseError>)
    ensures r.Success? <==> HasArgument(p, name)
    ensures r.Success? ==> exists i :: FirstArg(p.args, name, i) && r.value == p.args[i].value
    ensures r.Failure? ==> r.error == ArgumentNotRecognized(name)
    ensures r == ArgumentValue(p, name)
  {
    var i := 0;
    while i < |p.args|
      invariant 0 <= i <= |p.args|
      invariant forall k :: 0 <= k < i ==> p.args[k].name != name
    {
      if p.args[i].name == name {
        ArgIndexIsFirst(p.args, name, i);
        return Success(ConvertString(p.args[i].value));
      }
      i := i + 1;
    }
    return Failure(ArgumentNotRecognized(name));
  }

  /** The first match is unique, so `ArgIndex` finds exactly it. */
  lemma ArgIndexIsFirst(args: seq<Arg>, name: string, i: int)
    requires FirstArg(args, name, i)
    ensures ArgIndex(args, name) == Some(i)
  {
  }

  /** `getArgument` as a function. */
  function ArgumentValue(p: Parser, name: string): (r: Result<string, ParseError>)
    ensures r.Success? <==> HasArgument(p, name)
    ensures r.Success? ==> exists i :: FirstArg(p.args, name, i) && r.value == p.args[i].value
  {
    match ArgIndex(p.args, name)
    case Some(i) => Success(ConvertString(p.args[i].value))
    case None => Failure(ArgumentNotRecognized(name))
  }

  /** `get`: a name is looked up as an argument first, then as an option, then as a flag. */
  function Get(p: Parser, name: string): (r: Result<string, ParseError>)
    ensures r.Failure? <==> !HasArgument(p, name) && !HasOption(p, name) && !HasFlag(p, name)
    ensures r.Failure? ==> r.error == NameNotRecognized(name)
    ensures HasArgument(p, name) ==> exists i :: FirstArg(p.args, name, i) && r == Success(p.args[i].value)
    ensures !HasArgument(p, name) && name in p.options ==> r == Success(p.options[name].value)
  {
    if HasArgument(p, name) then ArgumentValue(p, name)
    else if HasOption(p, name) then GetOption(p, name)
    else if HasFlag(p, name) then GetFlag(p, name)
    else Failure(NameNotRecognized(name))
  }

  /** With distinct names the order does not matter: `get` of a registered option is the
      option's value. */
  lemma GetOfOption(p: Parser, name: string)
    requires NamesDistinct(p) && HasOption(p, name)
    ensures Get(p, name) == Success(p.options[name].value)
  {
    assert !HasArgument(p, name) by {
      assert forall i :: 0 <= i < |p.args| ==> p.args[i].name != name;
    }
  }

  /** `getOptionAlt`: the obsolete name's value when it was given on the command line,
      otherwise the current name's. */
  function GetOptionAlt(p: Parser, name: string, obsoleteName: string): (r: Result<string, ParseError>)
    ensures SpecifiedOption(p, obsoleteName) ==> r == Success(p.options[obsoleteName].value)
    ensures !SpecifiedOption(p, obsoleteName) ==> r.Success? == HasOption(p, name)
    ensures !SpecifiedOption(p, obsoleteName) && r.Success? ==> r.value == p.options[name].value
  {
    if SpecifiedOption(p, obsoleteName) then GetOption(p, obsoleteName) else GetOption(p, name)
  }

  /** `getFlagAlt`: the obsolete flag's value when it was given on the command line,
      otherwise the current flag's. */
  function GetFlagAlt(p: Parser, name: string, obsoleteName: string): (r: Result<string, ParseError>)
    ensures SpecifiedFlag(p, obsoleteName) ==> r == Success(p.options[obsoleteName].value)
    ensures !SpecifiedFlag(p, obsoleteName) ==> r.Success? == HasFlag(p, name)
    ensures !SpecifiedFlag(p, obsoleteName) && r.Success? ==> r.value == p.options[name].value
  {
    if SpecifiedFlag(p, obsoleteName) then GetFlag(p, obsoleteName) else GetFlag(p, name)
  }

  /** Adding then reading an option gives back the default exactly, through `getOption`,
      through `get`, and through `getOptionAlt` with an obsolete name that was never
      specified; names already registered read as before. */
  lemma AddThenGet(p: Parser, name: string, description: string, defaultValue: string, other: string, obsoleteName: string)
    requires AddOption(p, name, description, defaultValue).Success?
    ensures var q := AddOption(p, name, description, defaultValue).value;
      && GetOption(q, name) == Success(defaultValue)
      && Get(q, name) == Success(defaultValue)
      && (!SpecifiedOption(p, obsoleteName) ==> GetOptionAlt(q, name, obsoleteName) == Success(defaultValue))
      && (other != name ==> GetOption(q, other) == GetOption(p, other) && Get(q, other) == Get(p, other))
  {
    var q := AddOption(p, name, description, defaultValue).value;
    assert !HasArgument(q, name);
    if other != name {
      assert HasArgument(q, other) == HasArgument(p, other);
      assert ArgumentValue(q, other) == ArgumentValue(p, other);
    }
  }
}

=== FILE: inserts.dfy ===
/** PSL insert counters (`computePSLInserts` in liftover/impl/halLiftover.cpp): for each
    adjacent pair of blocks, the gap between them in the target and in the query, measured
    in increasing-coordinate direction according to the strand. */
module PslInserts {
  import opened Wrappers
  import opened Bed
  import opened Orientation

  /** Target gap between blocks `i - 1` and `i`; on '-' the pair is taken the other way. */
  function TargetGap(bs: seq<Block>, i: int, strand: char): int
    requires 1 <= i < |bs|
  {
    if strand == '-' then bs[i - 1].start - BlockEnd(bs[i]) else bs[i].start - BlockEnd(bs[i - 1])
  }

  /** Query gap between blocks `i - 1` and `i`, taken the other way on a '-' query strand;
      overlapping query blocks (duplications) give 0 rather than a negative gap. */
  function QueryGap(bs: seq<Block>, q: seq<int>, i: int, qStrand: char): int
    requires |q| == |bs| && 1 <= i < |bs|
  {
    if qStrand == '-' then
      if q[i - 1] >= q[i] + bs[i].length then q[i - 1] - (q[i] + bs[i].length) else 0
    else
      if q[i] >= q[i - 1] + bs[i - 1].length then q[i] - (q[i - 1] + bs[i - 1].length) else 0
  }

  /** Target gaps of all adjacent pairs, in block order. */
  function TargetGaps(bs: seq<Block>, strand: char): seq<int> {
    if |bs| < 2 then [] else TargetGaps(bs[..|bs| - 1], strand) + [TargetGap(bs, |bs| - 1, strand)]
  }

  /** Query gaps of all adjacent pairs, in block order. */
  function QueryGaps(bs: seq<Block>, q: seq<int>, qStrand: char): seq<int>
    requires |q| == |bs|
  {
    if |bs| < 2 then []
    else QueryGaps(bs[..|bs| - 1], q[..|q| - 1], qStrand) + [QueryGap(bs, q, |bs| - 1, qStrand)]
  }

  /** Number of positive gaps (one insert each). */
  function NumInserts(gaps: seq<int>): int {
    if gaps == [] then 0
    else NumInserts(gaps[..|gaps| - 1]) + (if Last(gaps) > 0 then 1 else 0)
  }

  /** Sum of the positive gaps (inserted bases). */
  function BaseInserts(gaps: seq<int>): int {
    if gaps == [] then 0
    else BaseInserts(gaps[..|gaps| - 1]) + (if Last(gaps) > 0 then Last(gaps) else 0)
  }

  /** There are at most as many inserts as gaps, and every insert has at least one base. */
  lemma {:induction false} InsertCountBounds(gaps: seq<int>)
    ensures 0 <= NumInserts(gaps) <= |gaps|
    ensures BaseInserts(gaps) >= NumInserts(gaps)
  {
    if gaps != [] {
      InsertCountBounds(gaps[..|gaps| - 1]);
    }
  }

  lemma {:induction false} TargetGapsLength(bs: seq<Block>, strand: char)
    ensures |TargetGaps(bs, strand)| == if |bs| < 2 then 0 else |bs| - 1
  {
    if |bs| >= 2 {
      TargetGapsLength(bs[..|bs| - 1], strand);
    }
  }

  lemma {:induction false} QueryGapsLength(bs: seq<Block>, q: seq<int>, qStrand: char)
    requires |q| == |bs|
    ensures |QueryGaps(bs, q, qStrand)| == if |bs| < 2 then 0 else |bs| - 1
  {
    if |bs| >= 2 {
      QueryGapsLength(bs[..|bs| - 1], q[..|q| - 1], qStrand);
    }
  }

  /** `computePSLInserts` for one record: the four counters start at 0 and count the
      positive target and query gaps. */
  function ComputeInserts(r: BedLine): (c: BedLine)
    requires r.psl.Some? && |r.psl.value.qBlockStarts| == |r.blocks|
    ensures c.psl.Some? && c.blocks == r.blocks
    ensures c.psl.value.qBlockStarts == r.psl.value.qBlockStarts
    ensures c.psl.value.stats == r.psl.value.stats
    ensures var n := if |r.blocks| < 2 then 0 else |r.blocks| - 1;
      && 0 <= c.psl.value.tNumInsert <= n && c.psl.value.tNumInsert <= c.psl.value.tBaseInsert
      && 0 <= c.psl.value.qNumInsert <= n && c.psl.value.qNumInsert <= c.psl.value.qBaseInsert
    ensures c.(psl := r.psl) == r
  {
    var p := r.psl.value;
    var tg := TargetGaps(r.blocks, r.strand);
    var qg := QueryGaps(r.blocks, p.qBlockStarts, p.qStrand);
    InsertCountBounds(tg);
    InsertCountBounds(qg);
    TargetGapsLength(r.blocks, r.strand);
    QueryGapsLength(r.blocks, p.qBlockStarts, p.qStrand);
    r.(psl := Some(p.(qNumInsert := NumInserts(qg), qBaseInsert := BaseInserts(qg),
                      tNumInsert := NumInserts(tg), tBaseInsert := BaseInserts(tg))))
  }

  /** On ascending blocks (strand not '-') every target gap is non-negative and the
      inserted bases plus the aligned bases fill the span from first start to last end. */
  lemma {:induction false} AscendingTargetSpan(bs: seq<Block>, strand: char)
    requires strand != '-' && bs != [] && Ascending(bs)
    ensures forall g :: g in TargetGaps(bs, strand) ==> g >= 0
    ensures BaseInserts(TargetGaps(bs, strand)) + SumLengths(bs) == BlockEnd(Last(bs)) - bs[0].start
  {
    var n := |bs|;
    if n >= 2 {
      var init := bs[..n - 1];
      assert Ascending(init);
      AscendingTargetSpan(init, strand);
      assert BlockEnd(bs[n - 2]) <= bs[n - 1].start;
    }
  }

  /** On descending blocks (strand '-') every target gap is non-negative and the inserted
      bases plus the aligned bases fill the span from last start to first end. */
  lemma {:induction false} DescendingTargetSpan(bs: seq<Block>)
    requires bs != [] && Descending(bs)
    ensures forall g :: g in TargetGaps(bs, '-') ==> g >= 0
    ensures BaseInserts(TargetGaps(bs, '-')) + SumLengths(bs) == BlockEnd(bs[0]) - Last(bs).start
  {
    var n := |bs|;
    if n >= 2 {
      var init := bs[..n - 1];
      assert Descending(init);
      DescendingTargetSpan(init);
      var g := TargetGap(bs, n - 1, '-');
      assert BlockEnd(bs[n - 1]) <= bs[n - 2].start;
      assert g == bs[n - 2].start - BlockEnd(bs[n - 1]) >= 0;
      assert TargetGaps(bs, '-') == TargetGaps(init, '-') + [g];
      assert SumLengths(bs) == SumLengths(init) + bs[n - 1].length;
      assert Last(init) == bs[n - 2] && init[0] == bs[0];
    }
  }

  /** On ascending query blocks (query strand not '-') the inserted query bases plus the
      aligned bases fill the query span from first start to last end. */
  lemma {:induction false} AscendingQuerySpan(bs: seq<Block>, q: seq<int>, qStrand: char)
    requires |q| == |bs| && bs != []
    requires qStrand != '-' && QAscending(q, bs)
    ensures BaseInserts(QueryGaps(bs, q, qStrand)) + SumLengths(bs) == q[|q| - 1] + Last(bs).length - q[0]
  {
    var n := |bs|;
    if n >= 2 {
      assert QAscending(q[..n - 1], bs[..n - 1]);
      AscendingQuerySpan(bs[..n - 1], q[..n - 1], qStrand);
      assert q[n - 2] + bs[n - 2].length <= q[n - 1];
    }
  }

  /** On descending query blocks (query strand '-') the inserted query bases plus the
      aligned bases fill the query span from last start to first end. */
  lemma {:induction false} DescendingQuerySpan(bs: seq<Block>, q: seq<int>)
    requires |q| == |bs| && bs != []
    requires QDescending(q, bs)
    ensures BaseInserts(QueryGaps(bs, q, '-')) + SumLengths(bs) == q[0] + bs[0].length - q[|q| - 1]
  {
    var n := |bs|;
    if n >= 2 {
      assert QDescending(q[..n - 1], bs[..n - 1]);
      DescendingQuerySpan(bs[..n - 1], q[..n - 1]);
      assert q[n - 1] + bs[n - 1].length <= q[n - 2];
    }
  }

  /** For a record in output order, the target inserts plus the aligned bases are exactly
      the record's extent `end - start`. */
  lemma TargetInsertsFillRecord(r: BedLine)
    requires Normalized(r, true)
    ensures ComputeInserts(r).psl.value.tBaseInsert + SumLengths(r.blocks) == r.end - r.start
  {
    if r.strand == '-' {
      DescendingTargetSpan(r.blocks);
    } else {
      AscendingTargetSpan(r.blocks, r.strand);
    }
  }
}

=== FILE: liftover.dfy ===
/** The per-line driver of the liftover (`visitLine`, `liftBlockIntervals`,
    `assignBlocksToIntervals` and `writeBlocksAsIntervals` in liftover/impl/halLiftover.cpp).

    The alignment walk `liftInterval` is not modelled: it is a parameter `lift` that maps one
    source interval (a BED line) to the fragments it lands on in the target genome. The
    genome's sequence table is a map from sequence name to length. */
module Liftover {
  import opened Wrappers
  import opened Bed
  import Sorting
  import opened Assembly
  import opened Orientation
  import opened PslInserts
  import opened Cleanup

  /** What the mapping primitive promises about every fragment it appends: a non-empty
      target interval with no blocks of its own, carrying PSL statistics and no query
      starts yet when PSL output is on. */
  ghost predicate LiftContract(lift: BedLine -> seq<BedLine>, outPSL: bool) {
    forall l: BedLine :: AreFragments(lift(l), outPSL)
  }

  function StartOf(l: BedLine): int { l.start }

  function BlockCount(r: BedLine): int { |r.blocks| }

  // ---------------------------------------------------------------------------
  // Preparing the input line
  // ---------------------------------------------------------------------------

  /** `expandToBed12`: the line becomes BED12; a line without blocks gets one block
      spanning the whole interval. */
  function ExpandToBed12(line: BedLine): (r: BedLine)
    ensures r.bedType == 12 && r.blocks != []
    ensures line.blocks != [] ==> r.blocks == line.blocks
    ensures line.blocks == [] && line.start <= line.end ==> RelCovers(r)
    ensures r.(bedType := line.bedType, blocks := line.blocks) == line
  {
    line.(bedType := 12, blocks := if line.blocks == [] then [Block(0, line.end - line.start)] else line.blocks)
  }

  /** The line `visitLine` works on: forced to BED12 when PSL output is requested. */
  function Prepared(line: BedLine, outPSL: bool, outPSLWithName: bool): (r: BedLine)
    ensures (outPSL || outPSLWithName) ==> r.bedType >= 12 && (line.bedType < 12 ==> r.blocks != [])
    ensures r.chrName == line.chrName && r.start == line.start && r.end == line.end
  {
    if (outPSL || outPSLWithName) && line.bedType < 12 then ExpandToBed12(line) else line
  }

  // ---------------------------------------------------------------------------
  // liftBlockIntervals
  // ---------------------------------------------------------------------------

  /** The line moved onto block `b`: `[line.start + b.start, line.start + b.start + b.length)`. */
  function BlockQuery(b: Block, line: BedLine): (q: BedLine)
    ensures q.(start := line.start, end := line.end) == line
    ensures q.start == line.start + b.start
    ensures q.end - q.start == b.length
  {
    line.(start := line.start + b.start, end := line.start + b.start + b.length)
  }

  /** The sub-intervals handed to the mapping primitive for blocks `bs` of `line`, in block
      order; empty blocks are skipped. */
  function QueriesOf(bs: seq<Block>, line: BedLine): (qs: seq<BedLine>)
    ensures |qs| == Sorting.SumOf(bs, NonEmptyWeight) <= |bs|
  {
    NonEmptyAtMost(bs);
    if bs == [] then []
    else
      Sorting.SumOfConcat([bs[0]], bs[1..], NonEmptyWeight);
      Sorting.SumOfSingle(bs[0], NonEmptyWeight);
      assert [bs[0]] + bs[1..] == bs;
      (if bs[0].length > 0 then [BlockQuery(bs[0], line)] else []) + QueriesOf(bs[1..], line)
  }

  /** One query per copy of a non-empty block: a block repeated in the list is asked for
      once per copy, and no more. */
  lemma {:induction false} QueriesOfMultiplicity(bs: seq<Block>, line: BedLine)
    ensures forall b: Block :: b.length > 0 ==> multiset(QueriesOf(bs, line))[BlockQuery(b, line)] == multiset(bs)[b]
    decreases |bs|
  {
    if bs != [] {
      QueriesOfMultiplicity(bs[1..], line);
      var head := if bs[0].length > 0 then [BlockQuery(bs[0], line)] else [];
      assert QueriesOf(bs, line) == head + QueriesOf(bs[1..], line);
      assert bs == [bs[0]] + bs[1..];
      assert multiset(bs) == multiset([bs[0]]) + multiset(bs[1..]);
      forall b: Block | b.length > 0 ensures multiset(head)[BlockQuery(b, line)] == multiset([bs[0]])[b] {
        BlockQueryInjective(b, bs[0], line);
      }
    }
  }

  /** Different blocks give different queries. */
  lemma BlockQueryInjective(b: Block, c: Block, line: BedLine)
    ensures BlockQuery(b, line) == BlockQuery(c, line) ==> b == c
  {
  }

  /** Counts a block when it is non-empty: summed over a block list, the number of
      non-empty blocks. */
  function NonEmptyWeight(b: Block): int {
    if b.length > 0 then 1 else 0
  }

  /** At most one per block: the number of non-empty blocks is at most the number of
      blocks. */
  lemma {:induction false} NonEmptyAtMost(bs: seq<Block>)
    ensures 0 <= Sorting.SumOf(bs, NonEmptyWeight) <= |bs|
  {
    if bs != [] {
      NonEmptyAtMost(bs[..|bs| - 1]);
    }
  }

  /** The block list after `std::sort` in `liftBlockIntervals`. */
  function SortedBlocks(line: BedLine): (bs: seq<Block>)
    ensures multiset(bs) == multiset(line.blocks)
    ensures Sorting.SortedByKey(bs, BlockStartOf)
  {
    Sorting.SortByKey(line.blocks, BlockStartOf)
  }

  /** The intervals `liftBlockIntervals` lifts, one per non-empty block, in order of block
      start; each is the line itself (with its blocks sorted) moved onto the block. */
  function BlockQueries(line: BedLine): seq<BedLine> {
    var bs := SortedBlocks(line);
    QueriesOf(bs, line.(blocks := bs))
  }

  lemma {:induction false} QueriesOfSound(bs: seq<Block>, line: BedLine)
    ensures forall q :: q in QueriesOf(bs, line) ==> exists b :: b in bs && b.length > 0 && q == BlockQuery(b, line)
    decreases |bs|
  {
    if bs != [] {
      QueriesOfSound(bs[1..], line);
      var head := if bs[0].length > 0 then [BlockQuery(bs[0], line)] else [];
      assert QueriesOf(bs, line) == head + QueriesOf(bs[1..], line);
      forall q | q in QueriesOf(bs, line) ensures exists b :: b in bs && b.length > 0 && q == BlockQuery(b, line) {
        if q !in head {
          assert q in QueriesOf(bs[1..], line);
          var b :| b in bs[1..] && b.length > 0 && q == BlockQuery(b, line);
          assert b in bs;
        }
      }
    }
  }

  lemma QueriesOfComplete(bs: seq<Block>, line: BedLine)
    ensures forall b :: b in bs && b.length > 0 ==> BlockQuery(b, line) in QueriesOf(bs, line)
  {
    var qs := QueriesOf(bs, line);
    QueriesOfMultiplicity(bs, line);
    forall b | b in bs && b.length > 0 ensures BlockQuery(b, line) in qs {
      assert multiset(bs)[b] > 0;
      assert multiset(qs)[BlockQuery(b, line)] > 0;
    }
  }

  lemma {:induction false} QueriesOfOrder(bs: seq<Block>, line: BedLine)
    requires Sorting.SortedByKey(bs, BlockStartOf)
    ensures Sorting.SortedByKey(QueriesOf(bs, line), StartOf)
    decreases |bs|
  {
    if bs != [] {
      var tail := bs[1..];
      assert Sorting.SortedByKey(tail, BlockStartOf) by {
        forall i, j | 0 <= i < j < |tail| ensures tail[i].start <= tail[j].start {
          assert tail[i] == bs[i + 1] && tail[j] == bs[j + 1];
        }
      }
      QueriesOfOrder(tail, line);
      var rest := QueriesOf(tail, line);
      var head := if bs[0].length > 0 then [BlockQuery(bs[0], line)] else [];
      assert QueriesOf(bs, line) == head + rest;
      QueriesAfter(bs, line);
      Sorting.SortedConcat(head, rest, StartOf);
    }
  }

  /** The queries of later blocks start no earlier than the first block's query. */
  lemma QueriesAfter(bs: seq<Block>, line: BedLine)
    requires bs != [] && Sorting.SortedByKey(bs, BlockStartOf)
    ensures forall q :: q in QueriesOf(bs[1..], line) ==> line.start + bs[0].start <= q.start
  {
    var tail := bs[1..];
    QueriesOfSound(tail, line);
    forall q | q in QueriesOf(tail, line) ensures line.start + bs[0].start <= q.start {
      var b :| b in tail && b.length > 0 && q == BlockQuery(b, line);
      var i :| 0 <= i < |tail| && tail[i] == b;
      assert bs[i + 1] == b;
    }
  }

  /** `liftBlockIntervals` asks for exactly the non-empty blocks of the line: every query
      is the line moved onto one of its non-empty blocks, every non-empty block is asked
      for, and the queries come in ascending target order. */
  lemma LiftBlockIntervalsSpec(line: BedLine)
    ensures var l := line.(blocks := SortedBlocks(line));
      var qs := BlockQueries(line);
      && |qs| == Sorting.SumOf(line.blocks, NonEmptyWeight) <= |line.blocks|
      && Sorting.SortedByKey(qs, StartOf)
      && (forall q :: q in qs ==> exists b :: b in line.blocks && b.length > 0 && q == BlockQuery(b, l))
      && (forall b :: b in line.blocks && b.length > 0 ==> BlockQuery(b, l) in qs)
      && (forall b: Block :: b.length > 0 ==> multiset(qs)[BlockQuery(b, l)] == multiset(line.blocks)[b])
  {
    var bs := SortedBlocks(line);
    var l := line.(blocks := bs);
    QueriesOfSound(bs, l);
    QueriesOfComplete(bs, l);
    QueriesOfOrder(bs, l);
    QueriesOfMultiplicity(bs, l);
    Sorting.SumOfPermutation(bs, line.blocks, NonEmptyWeight);
    forall b | b in line.blocks ensures b in bs {
      assert b in multiset(bs);
    }
    forall b | b in bs ensures b in line.blocks {
      assert b in multiset(line.blocks);
    }
  }

  /** `_mappedBlocks` after lifting every query in turn. */
  function Pool(qs: seq<BedLine>, lift: BedLine -> seq<BedLine>): seq<BedLine> {
    if qs == [] then [] else lift(qs[0]) + Pool(qs[1..], lift)
  }

  /** The pool holds exactly the fragments of the lifted queries. */
  lemma {:induction false} PoolMembers(qs: seq<BedLine>, lift: BedLine -> seq<BedLine>)
    ensures forall f :: f in Pool(qs, lift) <==> exists q :: q in qs && f in lift(q)
    decreases |qs|
  {
    if qs != [] {
      PoolMembers(qs[1..], lift);
      forall f | f in Pool(qs, lift) ensures exists q :: q in qs && f in lift(q) {
        if f !in lift(qs[0]) {
          assert f in Pool(qs[1..], lift);
          var q :| q in qs[1..] && f in lift(q);
          assert q in qs;
        }
      }
      forall f | (exists q :: q in qs && f in lift(q)) ensures f in Pool(qs, lift) {
        var q :| q in qs && f in lift(q);
        if q != qs[0] {
          var i :| 0 <= i < |qs| && qs[i] == q;
          assert qs[1..][i - 1] == q;
        }
      }
    }
  }

  lemma PoolFragments(qs: seq<BedLine>, lift: BedLine -> seq<BedLine>, outPSL: bool)
    requires LiftContract(lift, outPSL)
    ensures AreFragments(Pool(qs, lift), outPSL)
  {
    PoolMembers(qs, lift);
    forall f | f in Pool(qs, lift) ensures IsFragment(f, outPSL) {
      var q :| q in qs && f in lift(q);
      assert AreFragments(lift(q), outPSL);
    }
  }

  // ---------------------------------------------------------------------------
  // assignBlocksToIntervals
  // ---------------------------------------------------------------------------

  /** Sorting by source start, grouping, relativising and flipping. */
  function Oriented(mapped: seq<BedLine>, inStrand: char, outPSL: bool): (o: seq<BedLine>)
    ensures |o| == |Group(Sorting.SortByKey(mapped, SrcStartOf), outPSL, inStrand)|
  {
    var g := Group(Sorting.SortByKey(mapped, SrcStartOf), outPSL, inStrand);
    seq(|g|, j requires 0 <= j < |g| => FlipBlocks(Relativize(g[j]), outPSL))
  }

  /** `assignBlocksToIntervals`: the records built from the mapped fragments, in output
      order, with PSL insert counts filled in when PSL output is on. */
  function AssignBlocksToIntervals(mapped: seq<BedLine>, inStrand: char, outPSL: bool): (out: seq<BedLine>)
    requires AreFragments(mapped, outPSL)
    ensures |out| == |Oriented(mapped, inStrand, outPSL)|
  {
    var o := Oriented(mapped, inStrand, outPSL);
    if outPSL then
      OrientedShape(mapped, inStrand, outPSL);
      seq(|o|, j requires 0 <= j < |o| => ComputeInserts(o[j]))
    else o
  }

  /** The shape of every record `assignBlocksToIntervals` hands on: in output order, blocks
      inside the record, and for PSL the target inserts filling the record exactly. */
  ghost predicate Assigned(r: BedLine, outPSL: bool) {
    && Normalized(r, outPSL)
    && RelCovers(r)
    && (outPSL ==>
          var p := r.psl.value;
          var n := |r.blocks| - 1;
          && p.tBaseInsert + SumLengths(r.blocks) == r.end - r.start
          && 0 <= p.tNumInsert <= n && p.tNumInsert <= p.tBaseInsert
          && 0 <= p.qNumInsert <= n && p.qNumInsert <= p.qBaseInsert)
  }

  /** The query extent of a PSL record encloses every query block. */
  ghost predicate QueryEnclosed(r: BedLine)
    requires r.psl.Some? && |r.psl.value.qBlockStarts| <= |r.blocks|
  {
    var q := r.psl.value.qBlockStarts;
    forall i :: 0 <= i < |q| ==> r.srcStart <= q[i] && q[i] + r.blocks[i].length <= r.psl.value.qEnd
  }

  /** The shape of every record `visitLine` writes for a line with blocks. */
  ghost predicate Written(r: BedLine, outPSL: bool) {
    Assigned(r, outPSL) && (outPSL ==> QueryEnclosed(r))
  }

  lemma BlockCountFlatten(out: seq<BedLine>)
    ensures |FlattenBlocks(out)| == Sorting.SumOf(out, BlockCount)
  {
    if out != [] {
      BlockCountFlatten(out[..|out| - 1]);
    }
  }

  lemma FragBlocksLength(frags: seq<BedLine>)
    ensures |FragBlocks(frags)| == |frags|
  {
    if frags != [] {
      FragBlocksLength(frags[..|frags| - 1]);
    }
  }

  /** Records with the same statistics one by one have the same totals. */
  lemma TotalStatsPointwise(a: seq<BedLine>, b: seq<BedLine>)
    requires |a| == |b|
    requires forall j :: 0 <= j < |a| ==> StatsOf(a[j]) == StatsOf(b[j])
    ensures TotalStats(a) == TotalStats(b)
  {
    Sorting.SumOfPointwise(a, MatchesOf, b, MatchesOf);
    Sorting.SumOfPointwise(a, MisMatchesOf, b, MisMatchesOf);
    Sorting.SumOfPointwise(a, RepMatchesOf, b, RepMatchesOf);
    Sorting.SumOfPointwise(a, NCountOf, b, NCountOf);
  }

  lemma SortedFragments(mapped: seq<BedLine>, outPSL: bool)
    requires AreFragments(mapped, outPSL)
    ensures var s := Sorting.SortByKey(mapped, SrcStartOf);
      && AreFragments(s, outPSL)
      && |s| == |mapped|
      && (outPSL ==> TotalStats(s) == TotalStats(mapped))
  {
    var s := Sorting.SortByKey(mapped, SrcStartOf);
    Sorting.SortKeepsElements(mapped, SrcStartOf);
    TotalStatsPermutation(s, mapped);
  }

  lemma OrientedShape(mapped: seq<BedLine>, inStrand: char, outPSL: bool)
    requires AreFragments(mapped, outPSL)
    ensures var o := Oriented(mapped, inStrand, outPSL);
      && (forall j :: 0 <= j < |o| ==> Normalized(o[j], outPSL) && RelCovers(o[j]))
      && (mapped != [] <==> o != [])
      && Sorting.SumOf(o, BlockCount) == |mapped|
      && (outPSL ==> TotalStats(o) == TotalStats(mapped))
  {
    var s := Sorting.SortByKey(mapped, SrcStartOf);
    SortedFragments(mapped, outPSL);
    var g := Group(s, outPSL, inStrand);
    GroupTheorem(s, outPSL, inStrand);
    var o := Oriented(mapped, inStrand, outPSL);
    forall j | 0 <= j < |o| ensures Normalized(o[j], outPSL) && RelCovers(o[j]) {
      RelativizeShape(g[j], outPSL, inStrand);
      FlipNormalizes(Relativize(g[j]), outPSL, inStrand);
      NormalizedCovers(o[j], outPSL);
    }
    forall j | 0 <= j < |o| ensures BlockCount(o[j]) == BlockCount(g[j]) && StatsOf(o[j]) == StatsOf(g[j]) {
      FlipOnlyReorders(Relativize(g[j]), outPSL);
    }
    Sorting.SumOfPointwise(o, BlockCount, g, BlockCount);
    BlockCountFlatten(g);
    FragBlocksLength(s);
    if outPSL {
      TotalStatsPointwise(o, g);
    }
  }

  /** What `assignBlocksToIntervals` achieves: every record is in output order and lies
      within its own extent, with PSL inserts filling the record; there are records exactly
      when there are fragments; every fragment becomes exactly one block; and for PSL the
      records' statistics add up to the fragments'. */
  lemma AssignTheorem(mapped: seq<BedLine>, inStrand: char, outPSL: bool)
    requires AreFragments(mapped, outPSL)
    ensures var out := AssignBlocksToIntervals(mapped, inStrand, outPSL);
      && (forall j :: 0 <= j < |out| ==> Assigned(out[j], outPSL))
      && (mapped != [] <==> out != [])
      && Sorting.SumOf(out, BlockCount) == |mapped|
      && (outPSL ==> TotalStats(out) == TotalStats(mapped))
  {
    var o := Oriented(mapped, inStrand, outPSL);
    var out := AssignBlocksToIntervals(mapped, inStrand, outPSL);
    OrientedShape(mapped, inStrand, outPSL);
    if outPSL {
      InsertsAssigned(o, out);
    }
  }

  /** Filling in the inserts of records in output order keeps their blocks and statistics
      and makes the target inserts fill each record. */
  lemma InsertsAssigned(o: seq<BedLine>, out: seq<BedLine>)
    requires |o| == |out|
    requires forall j :: 0 <= j < |o| ==>
      Normalized(o[j], true) && RelCovers(o[j]) && out[j] == ComputeInserts(o[j])
    ensures forall j :: 0 <= j < |out| ==> Assigned(out[j], true)
    ensures Sorting.SumOf(out, BlockCount) == Sorting.SumOf(o, BlockCount)
    ensures TotalStats(out) == TotalStats(o)
  {
    forall j | 0 <= j < |out| ensures Assigned(out[j], true) {
      TargetInsertsFillRecord(o[j]);
    }
    Sorting.SumOfPointwise(out, BlockCount, o, BlockCount);
    TotalStatsPointwise(out, o);
  }

  /** What a record accounts for: its number of blocks and, for PSL, its statistics. */
  function Tally(r: BedLine, outPSL: bool): (int, Stats) {
    (BlockCount(r), if outPSL then StatsOf(r) else NoStats)
  }

  /** What a run of fragments accounts for: one block each and, for PSL, their summed
      statistics. */
  function RunTally(run: seq<BedLine>, outPSL: bool): (int, Stats) {
    (|run|, if outPSL then TotalStats(run) else NoStats)
  }

  function Tallies(rs: seq<BedLine>, outPSL: bool): seq<(int, Stats)> {
    seq(|rs|, j requires 0 <= j < |rs| => Tally(rs[j], outPSL))
  }

  function RunTallies(runs: seq<seq<BedLine>>, outPSL: bool): seq<(int, Stats)> {
    seq(|runs|, j requires 0 <= j < |runs| => RunTally(runs[j], outPSL))
  }

  lemma TalliesPointwise(a: seq<BedLine>, b: seq<BedLine>, outPSL: bool)
    requires |a| == |b|
    requires forall j :: 0 <= j < |a| ==> Tally(a[j], outPSL) == Tally(b[j], outPSL)
    ensures Tallies(a, outPSL) == Tallies(b, outPSL)
  {
  }

  /** Reordering records reorders their tallies. */
  lemma {:induction false} TalliesPermutation(a: seq<BedLine>, b: seq<BedLine>, outPSL: bool)
    requires multiset(a) == multiset(b)
    ensures multiset(Tallies(a, outPSL)) == multiset(Tallies(b, outPSL))
    decreases |a|
  {
    if a != [] {
      var x := a[|a| - 1];
      var a' := a[..|a| - 1];
      assert a == a' + [x];
      assert x in multiset(b);
      var i :| 0 <= i < |b| && b[i] == x;
      var b' := b[..i] + b[i + 1..];
      Sorting.MultisetRemove(b, i);
      TalliesPermutation(a', b', outPSL);
      TalliesRemove(b, i, outPSL);
      TalliesSnoc(a', x, outPSL);
    }
  }

  lemma TalliesSnoc(a: seq<BedLine>, x: BedLine, outPSL: bool)
    ensures multiset(Tallies(a + [x], outPSL)) == multiset(Tallies(a, outPSL)) + multiset{Tally(x, outPSL)}
  {
    assert Tallies(a + [x], outPSL) == Tallies(a, outPSL) + [Tally(x, outPSL)];
  }

  lemma TalliesRemove(b: seq<BedLine>, i: nat, outPSL: bool)
    requires i < |b|
    ensures multiset(Tallies(b[..i] + b[i + 1..], outPSL))
         == multiset(Tallies(b, outPSL)) - multiset{Tally(b[i], outPSL)}
  {
    var tb := Tallies(b, outPSL);
    assert Tallies(b[..i] + b[i + 1..], outPSL) == tb[..i] + tb[i + 1..];
    Sorting.MultisetRemove(tb, i);
  }

  /** A record assembled from a run of fragments accounts for that run once it is put in
      output order. */
  lemma OrientedTally(g: BedLine, run: seq<BedLine>, outPSL: bool)
    requires Segment(g, run, outPSL)
    ensures Tally(FlipBlocks(Relativize(g), outPSL), outPSL) == RunTally(run, outPSL)
  {
    FlipOnlyReorders(Relativize(g), outPSL);
    FragBlocksLength(run);
  }

  /** How `assignBlocksToIntervals` partitions the fragments: the source-sorted fragments
      cut into non-empty consecutive runs, one per record, each record holding one block
      per fragment of its run and, for PSL, the summed statistics of its run. */
  lemma AssignRuns(mapped: seq<BedLine>, inStrand: char, outPSL: bool)
    requires AreFragments(mapped, outPSL)
    ensures var out := AssignBlocksToIntervals(mapped, inStrand, outPSL);
      var s := Sorting.SortByKey(mapped, SrcStartOf);
      var runs := GroupRuns(s, outPSL, inStrand);
      && |runs| == |out|
      && JoinRuns(runs) == s
      && multiset(JoinRuns(runs)) == multiset(mapped)
      && (forall run :: run in runs ==> run != [])
      && Tallies(out, outPSL) == RunTallies(runs, outPSL)
  {
    var s := Sorting.SortByKey(mapped, SrcStartOf);
    SortedFragments(mapped, outPSL);
    GroupRunsTheorem(s, outPSL, inStrand);
    var runs := GroupRuns(s, outPSL, inStrand);
    forall run | run in runs ensures run != [] {
      var j :| 0 <= j < |runs| && runs[j] == run;
    }
    OrientedTallies(mapped, inStrand, outPSL);
    AssignKeepsTallies(mapped, inStrand, outPSL);
  }

  /** Putting the records in output order leaves each accounting for its run. */
  lemma OrientedTallies(mapped: seq<BedLine>, inStrand: char, outPSL: bool)
    requires AreFragments(mapped, outPSL)
    ensures var runs := GroupRuns(Sorting.SortByKey(mapped, SrcStartOf), outPSL, inStrand);
      Tallies(Oriented(mapped, inStrand, outPSL), outPSL) == RunTallies(runs, outPSL)
  {
    var s := Sorting.SortByKey(mapped, SrcStartOf);
    SortedFragments(mapped, outPSL);
    var g := Group(s, outPSL, inStrand);
    GroupRunsTheorem(s, outPSL, inStrand);
    var runs := GroupRuns(s, outPSL, inStrand);
    var o := Oriented(mapped, inStrand, outPSL);
    forall j | 0 <= j < |o| ensures Tally(o[j], outPSL) == RunTally(runs[j], outPSL) {
      OrientedTally(g[j], runs[j], outPSL);
    }
    assert Tallies(o, outPSL) == RunTallies(runs, outPSL);
  }

  /** Filling in the PSL inserts changes no record's tally. */
  lemma AssignKeepsTallies(mapped: seq<BedLine>, inStrand: char, outPSL: bool)
    requires AreFragments(mapped, outPSL)
    ensures Tallies(AssignBlocksToIntervals(mapped, inStrand, outPSL), outPSL)
         == Tallies(Oriented(mapped, inStrand, outPSL), outPSL)
  {
    var o := Oriented(mapped, inStrand, outPSL);
    var out := AssignBlocksToIntervals(mapped, inStrand, outPSL);
    if outPSL {
      OrientedShape(mapped, inStrand, outPSL);
      forall j | 0 <= j < |out| ensures Tally(out[j], outPSL) == Tally(o[j], outPSL) {
        assert out[j] == ComputeInserts(o[j]);
      }
    }
    assert Tallies(out, outPSL) == Tallies(o, outPSL);
  }

  // ---------------------------------------------------------------------------
  // visitLine
  // ---------------------------------------------------------------------------

  /** The outcome of one input line: the records written (in order), the names of the
      sequences found missing so far, and whether a missing-sequence warning was printed. */
  datatype LineResult = LineResult(out: seq<BedLine>, missed: set<string>, warned: bool)

  /** The records produced before cleaning, for a line that passed every check. */
  function Lifted(line: BedLine, outPSL: bool, lift: BedLine -> seq<BedLine>): (outs: seq<BedLine>)
    requires LiftContract(lift, outPSL)
    ensures line.bedType <= 9 ==> outs == lift(line)
  {
    if line.bedType <= 9 then lift(line)
    else
      var pool := Pool(BlockQueries(line), lift);
      PoolFragments(BlockQueries(line), lift, outPSL);
      if |pool| > 0 then AssignBlocksToIntervals(pool, line.strand, outPSL) else []
  }

  lemma LiftedShape(line: BedLine, outPSL: bool, lift: BedLine -> seq<BedLine>)
    requires LiftContract(lift, outPSL)
    ensures line.bedType > 9 ==>
      var pool := Pool(BlockQueries(line), lift);
      var outs := Lifted(line, outPSL, lift);
      && (forall j :: 0 <= j < |outs| ==> Assigned(outs[j], outPSL))
      && Sorting.SumOf(outs, BlockCount) == |pool|
      && (outPSL ==> TotalStats(outs) == TotalStats(pool))
  {
    if line.bedType > 9 {
      var pool := Pool(BlockQueries(line), lift);
      PoolFragments(BlockQueries(line), lift, outPSL);
      AssignTheorem(pool, line.strand, outPSL);
    }
  }

  /** The runs the fragments lifted from a block-typed line are cut into, one per record. */
  ghost function LineRuns(line: BedLine, lift: BedLine -> seq<BedLine>, outPSL: bool): seq<seq<BedLine>> {
    GroupRuns(Sorting.SortByKey(Pool(BlockQueries(line), lift), SrcStartOf), outPSL, line.strand)
  }

  lemma LiftedRuns(line: BedLine, outPSL: bool, lift: BedLine -> seq<BedLine>)
    requires LiftContract(lift, outPSL) && line.bedType > 9
    ensures var pool := Pool(BlockQueries(line), lift);
      var outs := Lifted(line, outPSL, lift);
      var runs := LineRuns(line, lift, outPSL);
      && multiset(JoinRuns(runs)) == multiset(pool)
      && (forall run :: run in runs ==> run != [])
      && Tallies(outs, outPSL) == RunTallies(runs, outPSL)
  {
    var pool := Pool(BlockQueries(line), lift);
    PoolFragments(BlockQueries(line), lift, outPSL);
    var s := Sorting.SortByKey(pool, SrcStartOf);
    AssignRuns(pool, line.strand, outPSL);
    if |pool| == 0 {
      assert Runs(s, 0, outPSL, line.strand) == [];
    }
  }

  /** The records `visitLine` writes for a line that passed its checks: lifted, cleaned,
      and sorted by source start. */
  function LineRecords(line: BedLine, outPSL: bool, lift: BedLine -> seq<BedLine>): (out: seq<BedLine>)
    requires LiftContract(lift, outPSL)
    ensures Sorting.SortedByKey(out, SrcStartOf)
  {
    var outs := Lifted(line, outPSL, lift);
    LiftedShape(line, outPSL, lift);
    Sorting.SortByKey(CleanResults(outs, line, outPSL), SrcStartOf)
  }

  /** `visitLine`: checks the line against the source genome, lifts it, assembles and
      cleans the records, and sorts them by source start. */
  function VisitLine(line0: BedLine, outPSL: bool, outPSLWithName: bool,
                     seqLengths: map<string, int>, missed: set<string>,
                     lift: BedLine -> seq<BedLine>): (res: LineResult)
    requires LiftContract(lift, outPSL)
    ensures missed <= res.missed && res.missed <= missed + {line0.chrName}
    ensures res.warned <==> line0.chrName !in missed && line0.chrName !in seqLengths
    ensures res.out != [] ==> line0.chrName in seqLengths && line0.end <= seqLengths[line0.chrName]
    ensures Sorting.SortedByKey(res.out, SrcStartOf)
  {
    var line := Prepared(line0, outPSL, outPSLWithName);
    if line.chrName !in seqLengths then
      LineResult([], missed + {line.chrName}, line.chrName !in missed)
    else if line.end > seqLengths[line.chrName] then
      LineResult([], missed, false)
    else if line.bedType > 9 && line.blocks == [] then
      LineResult([], missed, false)
    else
      LineResult(LineRecords(line, outPSL, lift), missed, false)
  }

  /** A line on a sequence the genome lacks produces nothing and records the name; the
      warning is printed only the first time the name is seen. */
  lemma VisitMissingSequence(line0: BedLine, outPSL: bool, outPSLWithName: bool,
                             seqLengths: map<string, int>, missed: set<string>,
                             lift: BedLine -> seq<BedLine>)
    requires LiftContract(lift, outPSL)
    requires line0.chrName !in seqLengths
    ensures var res := VisitLine(line0, outPSL, outPSLWithName, seqLengths, missed, lift);
      && res.out == []
      && res.missed == missed + {line0.chrName}
      && (res.warned <==> line0.chrName !in missed)
  {
  }

  /** Lines reaching past the end of their sequence, and block-typed lines without blocks,
      are skipped without touching the missed-sequence set. */
  lemma VisitSkippedLine(line0: BedLine, outPSL: bool, outPSLWithName: bool,
                         seqLengths: map<string, int>, missed: set<string>,
                         lift: BedLine -> seq<BedLine>)
    requires LiftContract(lift, outPSL)
    requires line0.chrName in seqLengths
    requires var line := Prepared(line0, outPSL, outPSLWithName);
      line.end > seqLengths[line.chrName] || (line.bedType > 9 && line.blocks == [])
    ensures var res := VisitLine(line0, outPSL, outPSLWithName, seqLengths, missed, lift);
      res == LineResult([], missed, false)
  {
  }

  /** A line without blocks (BED3 to BED9, no PSL output) is reported fragment by fragment:
      the output is a reordering of the primitive's fragments after the thick fix-up, and
      for BED3 to BED6 exactly a reordering of the fragments themselves. */
  lemma VisitIntervalLine(line0: BedLine, outPSL: bool, outPSLWithName: bool,
                          seqLengths: map<string, int>, missed: set<string>,
                          lift: BedLine -> seq<BedLine>)
    requires LiftContract(lift, outPSL)
    requires !outPSL && !outPSLWithName && line0.bedType <= 9
    requires line0.chrName in seqLengths && line0.end <= seqLengths[line0.chrName]
    ensures var res := VisitLine(line0, outPSL, outPSLWithName, seqLengths, missed, lift);
      var frags := lift(line0);
      && res.missed == missed && !res.warned
      && multiset(res.out) == multiset(seq(|frags|, j requires 0 <= j < |frags| => FixRecord(frags[j], line0, outPSL)))
      && (line0.bedType <= 6 ==> multiset(res.out) == multiset(frags))
  {
    var frags := lift(line0);
    var cleaned := CleanResults(frags, line0, outPSL);
    assert VisitLine(line0, outPSL, outPSLWithName, seqLengths, missed, lift).out
      == Sorting.SortByKey(cleaned, SrcStartOf);
    CleanIntervals(frags, line0, outPSL);
  }

  /** Cleaning the fragments of a line without blocks drops none of them; below BED7 it
      changes none of them either. */
  lemma CleanIntervals(frags: seq<BedLine>, line: BedLine, outPSL: bool)
    requires line.bedType <= 9
    ensures CleanResults(frags, line, outPSL)
      == seq(|frags|, j requires 0 <= j < |frags| => FixRecord(frags[j], line, outPSL))
    ensures line.bedType <= 6 && !outPSL ==> CleanResults(frags, line, outPSL) == frags
  {
    var fixed := seq(|frags|, j requires 0 <= j < |frags| => FixRecord(frags[j], line, outPSL));
    assert CleanResults(frags, line, outPSL) == fixed;
    if line.bedType <= 6 && !outPSL {
      assert fixed == frags;
    }
  }

  /** Cleaning assembled records of a block-typed line drops none of them and keeps their
      shape, block count and statistics, while fixing the query extent. */
  lemma CleanAssigned(outs: seq<BedLine>, line: BedLine, outPSL: bool)
    requires line.bedType > 9
    requires forall j :: 0 <= j < |outs| ==> Assigned(outs[j], outPSL)
    ensures forall r :: r in outs ==> r.blocks != [] && (outPSL ==> r.psl.Some? && |r.psl.value.qBlockStarts| == |r.blocks|)
    ensures var cleaned := CleanResults(outs, line, outPSL);
      && (forall j :: 0 <= j < |cleaned| ==> Written(cleaned[j], outPSL))
      && Sorting.SumOf(cleaned, BlockCount) == Sorting.SumOf(outs, BlockCount)
      && (outPSL ==> TotalStats(cleaned) == TotalStats(outs))
      && Tallies(cleaned, outPSL) == Tallies(outs, outPSL)
  {
    var cleaned := CleanResults(outs, line, outPSL);
    CleanEach(outs, line, outPSL);
    Sorting.SumOfPointwise(cleaned, BlockCount, outs, BlockCount);
    if outPSL {
      TotalStatsPointwise(cleaned, outs);
    }
    TalliesPointwise(cleaned, outs, outPSL);
  }

  /** Cleaning assembled records fixes each one up in place. */
  lemma CleanEach(outs: seq<BedLine>, line: BedLine, outPSL: bool)
    requires line.bedType > 9
    requires forall j :: 0 <= j < |outs| ==> Assigned(outs[j], outPSL)
    ensures forall r :: r in outs ==> r.blocks != [] && (outPSL ==> r.psl.Some? && |r.psl.value.qBlockStarts| == |r.blocks|)
    ensures var cleaned := CleanResults(outs, line, outPSL);
      && |cleaned| == |outs|
      && forall j :: 0 <= j < |cleaned| ==>
           && Written(cleaned[j], outPSL)
           && BlockCount(cleaned[j]) == BlockCount(outs[j])
           && StatsOf(cleaned[j]) == StatsOf(outs[j])
           && Tally(cleaned[j], outPSL) == Tally(outs[j], outPSL)
  {
    var cleaned := CleanResults(outs, line, outPSL);
    forall j | 0 <= j < |cleaned|
      ensures Written(cleaned[j], outPSL)
      ensures BlockCount(cleaned[j]) == BlockCount(outs[j]) && StatsOf(cleaned[j]) == StatsOf(outs[j])
    {
      assert cleaned[j] == FixRecord(outs[j], line, outPSL);
      FixAssigned(outs[j], line, outPSL);
    }
  }

  /** Fixing up one assembled record of a block-typed line keeps its shape, its blocks and
      its statistics, and makes its query extent enclose its query blocks. */
  lemma FixAssigned(r: BedLine, line: BedLine, outPSL: bool)
    requires line.bedType > 9 && Assigned(r, outPSL)
    requires outPSL ==> r.psl.Some? && |r.psl.value.qBlockStarts| == |r.blocks|
    ensures Written(FixRecord(r, line, outPSL), outPSL)
    ensures BlockCount(FixRecord(r, line, outPSL)) == BlockCount(r)
    ensures StatsOf(FixRecord(r, line, outPSL)) == StatsOf(r)
  {
  }

  /** For a record whose query blocks run in the order of its query strand, the query
      inserts plus the aligned bases are exactly the query extent that cleaning computes,
      `qEnd - qStart`. */
  lemma QueryInsertsFillRecord(r: BedLine, line: BedLine)
    requires line.bedType > 9
    requires r.psl.Some? && |r.psl.value.qBlockStarts| == |r.blocks|
    requires r.blocks != [] && PositiveLengths(r.blocks)
    requires var q := r.psl.value.qBlockStarts;
      && InIndexRange(q)
      && (r.psl.value.qStrand == '-' ==> QDescending(q, r.blocks))
      && (r.psl.value.qStrand != '-' ==> QAscending(q, r.blocks))
    ensures var c := FixRecord(ComputeInserts(r), line, true);
      c.psl.value.qBaseInsert + SumLengths(c.blocks) == c.psl.value.qEnd - c.srcStart
  {
    var q := r.psl.value.qBlockStarts;
    if r.psl.value.qStrand == '-' {
      DescendingQuerySpan(r.blocks, q);
      DescendingQueryExtent(q, r.blocks);
    } else {
      AscendingQuerySpan(r.blocks, q, r.psl.value.qStrand);
      AscendingQueryExtent(q, r.blocks);
    }
  }

  /** The final sort by source start keeps every record and so every total. */
  lemma SortWritten(cleaned: seq<BedLine>, outPSL: bool)
    requires forall j :: 0 <= j < |cleaned| ==> Written(cleaned[j], outPSL)
    ensures var out := Sorting.SortByKey(cleaned, SrcStartOf);
      && (forall j :: 0 <= j < |out| ==> Written(out[j], outPSL))
      && Sorting.SumOf(out, BlockCount) == Sorting.SumOf(cleaned, BlockCount)
      && TotalStats(out) == TotalStats(cleaned)
  {
    var out := Sorting.SortByKey(cleaned, SrcStartOf);
    Sorting.SortKeepsElements(cleaned, SrcStartOf);
    forall j | 0 <= j < |out| ensures Written(out[j], outPSL) {
      assert out[j] in cleaned;
    }
    Sorting.SumOfPermutation(out, cleaned, BlockCount);
    TotalStatsPermutation(out, cleaned);
  }

  /** What the mapping primitive is taken to do with an absent thick region: copy it, so an
      interval without one yields fragments without one. */
  ghost predicate CopiesNoThick(lift: BedLine -> seq<BedLine>) {
    forall l: BedLine, f :: !HasThick(l) && f in lift(l) ==> !HasThick(f)
  }

  /** Sorting, grouping, relativising, flipping and filling in inserts never write the thick
      region: fragments without one give records without one. */
  lemma AssignKeepsNoThick(mapped: seq<BedLine>, inStrand: char, outPSL: bool)
    requires AreFragments(mapped, outPSL) && forall f :: f in mapped ==> !HasThick(f)
    ensures forall r :: r in AssignBlocksToIntervals(mapped, inStrand, outPSL) ==> !HasThick(r)
  {
    var s := Sorting.SortByKey(mapped, SrcStartOf);
    Sorting.SortKeepsElements(mapped, SrcStartOf);
    assert ThickIs(s[..|s|], 0, 0) by {
      forall j | 0 <= j < |s| ensures s[..|s|][j].thickStart == 0 && s[..|s|][j].thickEnd == 0 {
        assert s[j] in mapped;
      }
    }
    GroupUpToKeepsThick(s, |s|, outPSL, inStrand, 0, 0);
    var g := Group(s, outPSL, inStrand);
    var o := Oriented(mapped, inStrand, outPSL);
    var out := AssignBlocksToIntervals(mapped, inStrand, outPSL);
    forall r | r in out ensures !HasThick(r) {
      var j :| 0 <= j < |out| && out[j] == r;
      assert o[j] == FlipBlocks(Relativize(g[j]), outPSL);
      assert o[j].thickStart == g[j].thickStart && o[j].thickEnd == g[j].thickEnd;
    }
  }

  /** The block queries copy the line's thick region, so their fragments carry none when the
      line has none. */
  lemma PoolKeepsNoThick(line: BedLine, outPSL: bool, lift: BedLine -> seq<BedLine>)
    requires CopiesNoThick(lift) && !HasThick(line)
    ensures forall f :: f in Pool(BlockQueries(line), lift) ==> !HasThick(f)
  {
    var l := line.(blocks := SortedBlocks(line));
    var qs := BlockQueries(line);
    LiftBlockIntervalsSpec(line);
    PoolMembers(qs, lift);
    forall f | f in Pool(qs, lift) ensures !HasThick(f) {
      var q :| q in qs && f in lift(q);
      var b :| b in line.blocks && b.length > 0 && q == BlockQuery(b, l);
      assert !HasThick(q);
    }
  }

  /** The records lifted for a line without a thick region carry none. */
  lemma LiftedKeepsNoThick(line: BedLine, outPSL: bool, lift: BedLine -> seq<BedLine>)
    requires LiftContract(lift, outPSL) && CopiesNoThick(lift) && !HasThick(line)
    ensures forall r :: r in Lifted(line, outPSL, lift) ==> !HasThick(r)
  {
    if line.bedType > 9 {
      var pool := Pool(BlockQueries(line), lift);
      PoolFragments(BlockQueries(line), lift, outPSL);
      PoolKeepsNoThick(line, outPSL, lift);
      if |pool| > 0 {
        AssignKeepsNoThick(pool, line.strand, outPSL);
      }
    }
  }

  /** The assertion in `cleanResults` that, when the input line has no thick region, no record
      has one: it holds of the assembled records before cleaning and of the records written
      after it, given a mapping primitive that copies an absent thick region. */
  lemma ThickAssertion(line: BedLine, outPSL: bool, lift: BedLine -> seq<BedLine>)
    requires LiftContract(lift, outPSL) && CopiesNoThick(lift)
    ensures !HasThick(line) ==>
      && (forall r :: r in Lifted(line, outPSL, lift) ==> !HasThick(r))
      && (forall r :: r in LineRecords(line, outPSL, lift) ==> !HasThick(r))
  {
    if !HasThick(line) {
      var outs := Lifted(line, outPSL, lift);
      LiftedKeepsNoThick(line, outPSL, lift);
      LiftedShape(line, outPSL, lift);
      var cleaned := CleanResults(outs, line, outPSL);
      forall c | c in cleaned ensures !HasThick(c) {
        var r :| r in outs && Keep(r, line) && c == FixRecord(r, line, outPSL);
      }
      Sorting.SortKeepsElements(cleaned, SrcStartOf);
    }
  }

  /** The records written for a block-typed line: see `VisitBlockLine`. */
  lemma LineRecordsOfBlocks(line: BedLine, outPSL: bool, lift: BedLine -> seq<BedLine>)
    requires LiftContract(lift, outPSL) && line.bedType > 9
    ensures var out := LineRecords(line, outPSL, lift);
      var pool := Pool(BlockQueries(line), lift);
      && (forall j :: 0 <= j < |out| ==> Written(out[j], outPSL))
      && Sorting.SumOf(out, BlockCount) == |pool|
      && (outPSL ==> TotalStats(out) == TotalStats(pool))
  {
    var outs := Lifted(line, outPSL, lift);
    LiftedShape(line, outPSL, lift);
    CleanAssigned(outs, line, outPSL);
    var cleaned := CleanResults(outs, line, outPSL);
    SortWritten(cleaned, outPSL);
    assert LineRecords(line, outPSL, lift) == Sorting.SortByKey(cleaned, SrcStartOf);
  }

  /** The records written for a block-typed line account, as a whole, for the runs its
      fragments are cut into. */
  lemma LineRecordsRuns(line: BedLine, outPSL: bool, lift: BedLine -> seq<BedLine>)
    requires LiftContract(lift, outPSL) && line.bedType > 9
    ensures var out := LineRecords(line, outPSL, lift);
      multiset(Tallies(out, outPSL)) == multiset(RunTallies(LineRuns(line, lift, outPSL), outPSL))
  {
    var outs := Lifted(line, outPSL, lift);
    LiftedShape(line, outPSL, lift);
    LiftedRuns(line, outPSL, lift);
    CleanAssigned(outs, line, outPSL);
    var cleaned := CleanResults(outs, line, outPSL);
    TalliesPermutation(Sorting.SortByKey(cleaned, SrcStartOf), cleaned, outPSL);
    assert LineRecords(line, outPSL, lift) == Sorting.SortByKey(cleaned, SrcStartOf);
  }

  /** A line with blocks: every record written is in output order within its own extent,
      and for PSL its inserts fill the record and its query extent encloses every query
      block; every fragment the primitive returned for the blocks becomes exactly one
      block of the output; and for PSL the statistics of the output add up to the
      fragments'. */
  lemma VisitBlockLine(line0: BedLine, outPSL: bool, outPSLWithName: bool,
                       seqLengths: map<string, int>, missed: set<string>,
                       lift: BedLine -> seq<BedLine>)
    requires LiftContract(lift, outPSL)
    requires var line := Prepared(line0, outPSL, outPSLWithName);
      && line.bedType > 9 && line.blocks != []
      && line.chrName in seqLengths && line.end <= seqLengths[line.chrName]
    ensures var line := Prepared(line0, outPSL, outPSLWithName);
      var pool := Pool(BlockQueries(line), lift);
      var res := VisitLine(line0, outPSL, outPSLWithName, seqLengths, missed, lift);
      && res.missed == missed && !res.warned
      && (forall j :: 0 <= j < |res.out| ==> Written(res.out[j], outPSL))
      && Sorting.SumOf(res.out, BlockCount) == |pool|
      && (outPSL ==> TotalStats(res.out) == TotalStats(pool))
    ensures var line := Prepared(line0, outPSL, outPSLWithName);
      var pool := Pool(BlockQueries(line), lift);
      var res := VisitLine(line0, outPSL, outPSLWithName, seqLengths, missed, lift);
      var runs := LineRuns(line, lift, outPSL);
      && multiset(JoinRuns(runs)) == multiset(pool)
      && (forall run :: run in runs ==> run != [])
      && multiset(Tallies(res.out, outPSL)) == multiset(RunTallies(runs, outPSL))
  {
    var line := Prepared(line0, outPSL, outPSLWithName);
    LineRecordsOfBlocks(line, outPSL, lift);
    LiftedRuns(line, outPSL, lift);
    LineRecordsRuns(line, outPSL, lift);
    assert VisitLine(line0, outPSL, outPSLWithName, seqLengths, missed, lift)
      == LineResult(LineRecords(line, outPSL, lift), missed, false);
  }
}

=== FILE: mmapfile.dfy ===
/** The bump allocator of a memory-mapped HAL file (`alignRound`, `allocMem`,
    `getRootOffset` and `isReadOnly` in api/mmap_impl/mmapFile.h), over an abstract view of
    the file: the header's next free offset and root offset, the file size, and the access
    mode. `size_t` is 64 bits wide; where the code's arithmetic can wrap around, the wrap is
    written out. */
module MMapFile {
  import opened Wrappers

  /** `sizeof(size_t)`, the allocation granule. */
  const WORD: nat := 8

  /** 2^64: `size_t` arithmetic is modulo this. */
  const SIZE_MOD: nat := 0x1_0000_0000_0000_0000

  const SIZE_MAX: nat := SIZE_MOD - 1

  /** The write bit of an access mode (hal's `WRITE_ACCESS`). */
  const WRITE_ACCESS: bv32 := 0x2

  /** `MMAP_NULL_OFFSET`: the header lives at offset 0, so no object ever does. */
  const MMAP_NULL_OFFSET: nat := 0

  /** A value of type `size_t`. */
  predicate IsSize(x: int) {
    0 <= x < SIZE_MOD
  }

  /** The result of a `size_t` addition or multiplication, reduced modulo 2^64. */
  function Wrap(x: int): (r: nat)
    ensures IsSize(r)
    ensures IsSize(x) ==> r == x
  {
    x % SIZE_MOD
  }

  /** The allocator's view of an open file. */
  datatype MMapState = MMapState(nextOffset: nat, rootOffset: nat, fileSize: nat, mode: bv32)

  ghost predicate ValidState(st: MMapState) {
    IsSize(st.nextOffset) && IsSize(st.rootOffset) && IsSize(st.fileSize)
  }

  datatype AllocError = NotWritable | FileFull(fileSize: nat)

  /** What `allocMem` leaves behind: the new state and either the offset or the error. */
  datatype AllocOutcome = AllocOutcome(state: MMapState, result: Result<nat, AllocError>)

  // ---------------------------------------------------------------------------
  // isReadOnly
  // ---------------------------------------------------------------------------

  /** `isReadOnly`: the mode lacks the write bit. */
  predicate IsReadOnly(mode: bv32) {
    mode & WRITE_ACCESS == 0
  }

  /** Only the write bit decides: adding it makes any mode writable, removing it makes any
      mode read-only, and modes agreeing on it agree on `IsReadOnly`. */
  lemma ReadOnlyIsWriteBit(mode: bv32, other: bv32)
    ensures !IsReadOnly(mode | WRITE_ACCESS)
    ensures IsReadOnly(mode & !WRITE_ACCESS)
    ensures mode & WRITE_ACCESS == other & WRITE_ACCESS ==> (IsReadOnly(mode) <==> IsReadOnly(other))
  {
  }

  // ---------------------------------------------------------------------------
  // alignRound
  // ---------------------------------------------------------------------------

  /** `alignRound`: `size` rounded up to a multiple of the word size, computed in `size_t`
      (the addition of `WORD - 1` wraps for the last seven values). */
  function AlignRound(size: nat): (r: nat)
    requires IsSize(size)
    ensures IsSize(r) && r % WORD == 0
    ensures size <= SIZE_MAX - (WORD - 1) ==> size <= r < size + WORD
    ensures size > SIZE_MAX - (WORD - 1) ==> r == 0
  {
    (Wrap(size + (WORD - 1)) / WORD) * WORD
  }

  /** Rounding an aligned size changes nothing; in particular rounding is idempotent. */
  lemma AlignRoundIdempotent(size: nat)
    requires IsSize(size)
    ensures size % WORD == 0 ==> AlignRound(size) == size
    ensures AlignRound(AlignRound(size)) == AlignRound(size)
  {
  }

  /** The round-up in exact arithmetic. */
  function AlignUp(size: nat): (r: nat)
    ensures r % WORD == 0 && size <= r < size + WORD
  {
    ((size + (WORD - 1)) / WORD) * WORD
  }

  /** `AlignRound` is the exact round-up whenever the addition does not wrap. */
  lemma AlignRoundIsAlignUp(size: nat)
    requires IsSize(size) && size <= SIZE_MAX - (WORD - 1)
    ensures AlignRound(size) == AlignUp(size)
  {
  }

  // ---------------------------------------------------------------------------
  // allocMem as written
  // ---------------------------------------------------------------------------

  /** `allocMem` as written: the fullness test `nextOffset + size > fileSize` and the bump
      of `nextOffset` are both computed in `size_t`. A read-only file is refused first. */
  function AllocMemAsWritten(st: MMapState, size: nat, isRoot: bool): (o: AllocOutcome)
    requires ValidState(st) && IsSize(size)
    ensures o.result.Failure? ==> o.state == st
    ensures o.result.Failure? <==> IsReadOnly(st.mode) || Wrap(st.nextOffset + size) > st.fileSize
    ensures o.result.Success? ==> ValidState(o.state)
  {
    if IsReadOnly(st.mode) then AllocOutcome(st, Failure(NotWritable))
    else if Wrap(st.nextOffset + size) > st.fileSize then AllocOutcome(st, Failure(FileFull(st.fileSize)))
    else
      var offset := st.nextOffset;
      AllocOutcome(st.(nextOffset := Wrap(st.nextOffset + AlignRound(size)),
                       rootOffset := if isRoot then offset else st.rootOffset),
                   Success(offset))
  }

  /** A writable file with 16 bytes, 8 of them used. */
  const SmallFile := MMapState(8, 0, 16, WRITE_ACCESS)

  /** As written, a request for `SIZE_MAX` bytes passes the fullness test (8 + SIZE_MAX
      wraps to 7) and is granted at offset 8, although the region reaches far beyond the
      16-byte file; `nextOffset` does not move (the round-up wraps to 0), so the next
      allocation is granted the same offset and overlaps it. */
  lemma AllocMemWrapCounterexample()
    ensures var first := AllocMemAsWritten(SmallFile, SIZE_MAX, false);
      && first.result == Success(8)
      && 8 + SIZE_MAX > SmallFile.fileSize
      && first.state == SmallFile
      && AllocMemAsWritten(first.state, 8, false).result == Success(8)
  {
  }

  // ---------------------------------------------------------------------------
  // allocMem, corrected
  // ---------------------------------------------------------------------------

  /** `allocMem` with the fullness test and the bump computed exactly, as the code evidently
      intends: a request fails exactly when it does not fit, and the state is then left
      alone; a granted region lies inside the file and below the new `nextOffset`. */
  function AllocMem(st: MMapState, size: nat, isRoot: bool): (o: AllocOutcome)
    ensures o.result.Failure? ==> o.state == st
    ensures o.result == Failure(NotWritable) <==> IsReadOnly(st.mode)
    ensures o.result == Failure(FileFull(st.fileSize)) <==> !IsReadOnly(st.mode) && st.nextOffset + size > st.fileSize
    ensures o.result.Success? ==>
      && o.result.value == st.nextOffset
      && o.result.value + size <= st.fileSize
      && o.result.value + size <= o.state.nextOffset
      && o.state.nextOffset - st.nextOffset == AlignUp(size)
      && (st.nextOffset % WORD == 0 ==> o.state.nextOffset % WORD == 0)
      && o.state.rootOffset == (if isRoot then o.result.value else st.rootOffset)
      && o.state.fileSize == st.fileSize && o.state.mode == st.mode
  {
    if IsReadOnly(st.mode) then AllocOutcome(st, Failure(NotWritable))
    else if st.nextOffset + size > st.fileSize then AllocOutcome(st, Failure(FileFull(st.fileSize)))
    else
      var offset := st.nextOffset;
      AllocOutcome(st.(nextOffset := st.nextOffset + AlignUp(size),
                       rootOffset := if isRoot then offset else st.rootOffset),
                   Success(offset))
  }

  /** The fix only matters when the code's arithmetic wraps: while `nextOffset` plus the
      rounded size stays within `size_t`, the code as written and the corrected allocator
      agree. */
  lemma AllocMemAgreesWithoutWrap(st: MMapState, size: nat, isRoot: bool)
    requires ValidState(st) && IsSize(size)
    requires size <= SIZE_MAX - (WORD - 1) && st.nextOffset + AlignUp(size) <= SIZE_MAX
    ensures AllocMemAsWritten(st, size, isRoot) == AllocMem(st, size, isRoot)
  {
    AlignRoundIsAlignUp(size);
  }

  /** The corrected allocator refuses the request of the counterexample. */
  lemma AllocMemRefusesOversize()
    ensures AllocMem(SmallFile, SIZE_MAX, false).result == Failure(FileFull(16))
  {
  }

  /** Consecutive allocations never overlap: the second region starts where the first one's
      rounded size ends, so at or after its last byte. */
  lemma AllocationsDisjoint(st: MMapState, size1: nat, size2: nat, root1: bool, root2: bool)
    requires AllocMem(st, size1, root1).result.Success?
    ensures var first := AllocMem(st, size1, root1);
      var second := AllocMem(first.state, size2, root2);
      second.result.Success? ==> first.result.value + size1 <= second.result.value
  {
  }

  /** `getRootOffset`: the offset of the root object, which must have been allocated. */
  function GetRootOffset(st: MMapState): (r: nat)
    requires st.rootOffset > MMAP_NULL_OFFSET
    ensures r > MMAP_NULL_OFFSET
  {
    st.rootOffset
  }

  /** Allocating the root past the header makes `getRootOffset` return the new region;
      allocating anything else leaves the root where it was. */
  lemma RootAfterAlloc(st: MMapState, size: nat, isRoot: bool)
    requires st.nextOffset > MMAP_NULL_OFFSET
    requires AllocMem(st, size, isRoot).result.Success?
    ensures var o := AllocMem(st, size, isRoot);
      && (isRoot ==> GetRootOffset(o.state) == o.result.value)
      && (!isRoot ==> o.state.rootOffset == st.rootOffset)
  {
  }
}

=== FILE: orientation.dfy ===
/** Relativisation of block starts and orientation flipping of assembled records
    (the second half of `assignBlocksToIntervals` and `flipBlocks` in
    liftover/impl/halLiftover.cpp). */
module Orientation {
  import opened Wrappers
  import opened Bed
  import opened Assembly

  /** Moves every block start by `-d`. */
  function ShiftBlocks(bs: seq<Block>, d: int): (r: seq<Block>)
    ensures |r| == |bs|
    ensures forall j :: 0 <= j < |bs| ==> r[j] == Block(bs[j].start - d, bs[j].length)
  {
    seq(|bs|, j requires 0 <= j < |bs| => Block(bs[j].start - d, bs[j].length))
  }

  /** Makes the record's block starts relative to its own start. */
  function Relativize(r: BedLine): BedLine {
    r.(blocks := ShiftBlocks(r.blocks, r.start))
  }

  /** Turns record-relative block starts back into absolute ones. */
  function Absolutize(r: BedLine): BedLine {
    r.(blocks := ShiftBlocks(r.blocks, -r.start))
  }

  /** Relativising loses nothing: adding the record start back restores the blocks. */
  lemma RelativizeRoundTrip(r: BedLine)
    ensures Absolutize(Relativize(r)) == r
  {
    assert Absolutize(Relativize(r)).blocks == r.blocks;
  }

  /** Every relative block lies in `[0, end - start)`. */
  ghost predicate RelCovers(r: BedLine) {
    forall j :: 0 <= j < |r.blocks| ==> 0 <= r.blocks[j].start && BlockEnd(r.blocks[j]) <= r.end - r.start
  }

  /** The shape of a record after relativisation: as `RecordShape`, with the lowest block
      starting at 0 and the highest block ending at `end - start`. */
  ghost predicate RelativeShape(r: BedLine, outPSL: bool, inStrand: char) {
    var bs := r.blocks;
    && bs != []
    && PositiveLengths(bs)
    && (if r.strand == inStrand then
          Ascending(bs) && bs[0].start == 0 && BlockEnd(Last(bs)) == r.end - r.start
        else
          Descending(bs) && Last(bs).start == 0 && BlockEnd(bs[0]) == r.end - r.start)
    && (outPSL ==>
          && r.psl.Some?
          && |r.psl.value.qBlockStarts| == |bs|
          && QAscending(r.psl.value.qBlockStarts, bs))
  }

  /** Relativising an assembled record: all relative starts are non-negative (the
      assertion in the relativising loop) and every block fits in `[0, end - start)`. */
  lemma RelativizeShape(r: BedLine, outPSL: bool, inStrand: char)
    requires RecordShape(r, outPSL, inStrand)
    ensures RelativeShape(Relativize(r), outPSL, inStrand)
    ensures RelCovers(Relativize(r))
    ensures forall j :: 0 <= j < |r.blocks| ==> r.blocks[j].start >= r.start
  {
    var rs := Relativize(r).blocks;
    RelativizeOrders(r, outPSL, inStrand);
    RelativeCovers(Relativize(r), outPSL, inStrand);
    forall j | 0 <= j < |r.blocks| ensures r.blocks[j].start >= r.start {
      assert rs[j].start >= 0;
    }
  }

  lemma RelativizeOrders(r: BedLine, outPSL: bool, inStrand: char)
    requires RecordShape(r, outPSL, inStrand)
    ensures RelativeShape(Relativize(r), outPSL, inStrand)
  {
    var bs := r.blocks;
    var rs := Relativize(r).blocks;
    ShiftKeepsOrder(bs, r.start);
    assert Last(rs) == Block(Last(bs).start - r.start, Last(bs).length);
    assert rs[0] == Block(bs[0].start - r.start, bs[0].length);
  }

  /** Shifting blocks keeps their lengths and their order. */
  lemma ShiftKeepsOrder(bs: seq<Block>, d: int)
    ensures PositiveLengths(bs) ==> PositiveLengths(ShiftBlocks(bs, d))
    ensures Ascending(bs) ==> Ascending(ShiftBlocks(bs, d))
    ensures Descending(bs) ==> Descending(ShiftBlocks(bs, d))
  {
    var rs := ShiftBlocks(bs, d);
    if Ascending(bs) {
      forall i, j | 0 <= i < j < |rs| ensures BlockEnd(rs[i]) <= rs[j].start {
        assert BlockEnd(bs[i]) <= bs[j].start;
      }
    }
    if Descending(bs) {
      forall i, j | 0 <= i < j < |rs| ensures BlockEnd(rs[j]) <= rs[i].start {
        assert BlockEnd(bs[j]) <= bs[i].start;
      }
    }
  }

  /** A relative-shaped record covers exactly `[0, end - start)`. */
  lemma RelativeCovers(r: BedLine, outPSL: bool, inStrand: char)
    requires RelativeShape(r, outPSL, inStrand)
    ensures RelCovers(r)
  {
    var bs := r.blocks;
    var n := |bs|;
    forall j | 0 <= j < n ensures 0 <= bs[j].start && BlockEnd(bs[j]) <= r.end - r.start {
      if r.strand == inStrand {
        if j > 0 {
          assert BlockEnd(bs[0]) <= bs[j].start;
        }
        if j < n - 1 {
          assert BlockEnd(bs[j]) <= bs[n - 1].start;
        }
      } else {
        if j > 0 {
          assert BlockEnd(bs[j]) <= bs[0].start;
        }
        if j < n - 1 {
          assert BlockEnd(bs[n - 1]) <= bs[j].start;
        }
      }
    }
  }

  /** Whether `flipBlocks` reverses the record, judged on its first two blocks. */
  predicate MustFlip(r: BedLine, outPSL: bool)
    requires |r.blocks| > 1
  {
    var delta := r.blocks[1].start - BlockEnd(r.blocks[0]);
    if !outPSL then delta < 0
    else (r.strand == '-' && delta >= 0) || (r.strand != '-' && delta < 0)
  }

  /** Reverses the blocks (and for PSL the query starts) of a record with more than one
      block when `MustFlip` says so. */
  function FlipBlocks(r: BedLine, outPSL: bool): BedLine {
    if |r.blocks| > 1 && MustFlip(r, outPSL) then
      r.(blocks := Reverse(r.blocks),
         psl := if outPSL && r.psl.Some? then
                  Some(r.psl.value.(qBlockStarts := Reverse(r.psl.value.qBlockStarts)))
                else r.psl)
    else r
  }

  /** The output order of a relativised record: ascending in the target for BED and for
      PSL records not on '-', descending for PSL records on '-'; in both cases spanning
      `[0, end - start)`. */
  ghost predicate Normalized(r: BedLine, outPSL: bool) {
    var bs := r.blocks;
    && bs != []
    && PositiveLengths(bs)
    && (if outPSL && r.strand == '-' then
          Descending(bs) && Last(bs).start == 0 && BlockEnd(bs[0]) == r.end - r.start
        else
          Ascending(bs) && bs[0].start == 0 && BlockEnd(Last(bs)) == r.end - r.start)
    && (outPSL ==> r.psl.Some? && |r.psl.value.qBlockStarts| == |bs|)
  }

  /** Flipping touches only the order of the blocks and query starts: it keeps the record,
      or it reverses the blocks and, for PSL, the query starts together, changing nothing
      else; so both lists keep equal length. */
  lemma FlipOnlyReorders(r: BedLine, outPSL: bool)
    ensures var f := FlipBlocks(r, outPSL);
      || f == r
      || (&& |r.blocks| > 1
          && f.blocks == Reverse(r.blocks)
          && f.(blocks := r.blocks, psl := r.psl) == r
          && (outPSL && r.psl.Some? ==>
                f.psl == Some(r.psl.value.(qBlockStarts := Reverse(r.psl.value.qBlockStarts))))
          && (!(outPSL && r.psl.Some?) ==> f.psl == r.psl))
  {
  }

  /** The direction of the first two blocks of a relative-shaped record tells whether the
      record was built ascending. */
  lemma DeltaSign(r: BedLine, outPSL: bool, inStrand: char)
    requires RelativeShape(r, outPSL, inStrand) && |r.blocks| > 1
    ensures (r.blocks[1].start - BlockEnd(r.blocks[0]) >= 0) <==> (r.strand == inStrand)
  {
    if r.strand != inStrand {
      assert BlockEnd(r.blocks[1]) <= r.blocks[0].start;
    }
  }

  /** Flipping a relativised assembled record puts it in output order. */
  lemma FlipNormalizes(r: BedLine, outPSL: bool, inStrand: char)
    requires RelativeShape(r, outPSL, inStrand)
    ensures Normalized(FlipBlocks(r, outPSL), outPSL)
  {
    var bs := r.blocks;
    var f := FlipBlocks(r, outPSL);
    ReverseOrders(bs);
    if |bs| > 1 {
      DeltaSign(r, outPSL, inStrand);
    }
  }

  /** Flipping twice is flipping once: a record in output order is never flipped again. */
  lemma FlipIdempotent(r: BedLine, outPSL: bool, inStrand: char)
    requires RelativeShape(r, outPSL, inStrand)
    ensures FlipBlocks(FlipBlocks(r, outPSL), outPSL) == FlipBlocks(r, outPSL)
  {
    var f := FlipBlocks(r, outPSL);
    FlipNormalizes(r, outPSL, inStrand);
    if |f.blocks| > 1 {
      if outPSL && f.strand == '-' {
        assert BlockEnd(f.blocks[1]) <= f.blocks[0].start;
      } else {
        assert BlockEnd(f.blocks[0]) <= f.blocks[1].start;
      }
    }
  }

  /** The query order after flipping, for PSL records whose target strands and input strand
      are '+' or '-' and whose query strand is '-' exactly when the input strand is:
      query blocks descend on a '-' query strand and ascend otherwise. */
  lemma FlipQueryOrder(r: BedLine, inStrand: char)
    requires RelativeShape(r, true, inStrand)
    requires r.strand == '+' || r.strand == '-'
    requires inStrand == '+' || inStrand == '-'
    requires (r.psl.value.qStrand == '-') <==> (inStrand == '-')
    ensures var f := FlipBlocks(r, true);
      && f.psl.Some?
      && |f.psl.value.qBlockStarts| == |f.blocks|
      && (f.psl.value.qStrand == '-' ==> QDescending(f.psl.value.qBlockStarts, f.blocks))
      && (f.psl.value.qStrand != '-' ==> QAscending(f.psl.value.qBlockStarts, f.blocks))
  {
    var q := r.psl.value.qBlockStarts;
    ReverseQOrders(q, r.blocks);
    if |r.blocks| > 1 {
      DeltaSign(r, true, inStrand);
    }
  }

  /** The debug assertions after flipping a PSL record: target starts strictly decrease on
      '-' and strictly increase otherwise; query starts likewise by query strand. */
  lemma FlipDebugAssertions(r: BedLine, inStrand: char)
    requires RelativeShape(r, true, inStrand)
    requires r.strand == '+' || r.strand == '-'
    requires inStrand == '+' || inStrand == '-'
    requires (r.psl.value.qStrand == '-') <==> (inStrand == '-')
    ensures var f := FlipBlocks(r, true);
      forall i :: 1 <= i < |f.blocks| ==>
        && (f.strand == '-' ==> f.blocks[i].start < f.blocks[i - 1].start)
        && (f.strand != '-' ==> f.blocks[i].start > f.blocks[i - 1].start)
        && (f.psl.value.qStrand == '-' ==> f.psl.value.qBlockStarts[i] < f.psl.value.qBlockStarts[i - 1])
        && (f.psl.value.qStrand != '-' ==> f.psl.value.qBlockStarts[i] > f.psl.value.qBlockStarts[i - 1])
  {
    var f := FlipBlocks(r, true);
    FlipNormalizes(r, true, inStrand);
    FlipQueryOrder(r, inStrand);
    var bs := f.blocks;
    var q := f.psl.value.qBlockStarts;
    forall i | 1 <= i < |bs|
      ensures && (f.strand == '-' ==> bs[i].start < bs[i - 1].start)
              && (f.strand != '-' ==> bs[i].start > bs[i - 1].start)
              && (f.psl.value.qStrand == '-' ==> q[i] < q[i - 1])
              && (f.psl.value.qStrand != '-' ==> q[i] > q[i - 1])
    {
      assert bs[i].length > 0 && bs[i - 1].length > 0;
    }
  }

  /** A record in output order keeps every block inside `[0, end - start)`. */
  lemma NormalizedCovers(r: BedLine, outPSL: bool)
    requires Normalized(r, outPSL)
    ensures RelCovers(r)
  {
    var bs := r.blocks;
    var n := |bs|;
    if outPSL && r.strand == '-' {
      forall j | 0 <= j < n ensures 0 <= bs[j].start && BlockEnd(bs[j]) <= r.end - r.start {
        if j < n - 1 {
          assert BlockEnd(bs[n - 1]) <= bs[j].start;
        }
        if 0 < j {
          assert BlockEnd(bs[j]) <= bs[0].start;
        }
      }
    } else {
      forall j | 0 <= j < n ensures 0 <= bs[j].start && BlockEnd(bs[j]) <= r.end - r.start {
        if 0 < j {
          assert BlockEnd(bs[0]) <= bs[j].start;
        }
        if j < n - 1 {
          assert BlockEnd(bs[j]) <= bs[n - 1].start;
        }
      }
    }
  }
}

=== FILE: sorting.dfy ===
/** A stable insertion sort on sequences keyed by an integer, used wherever the C++ code
    calls `std::sort` or `std::list::sort` with a comparator whose primary key is a position. */
module Sorting {

  /** `s` is in non-decreasing order of `key`. */
  ghost predicate SortedByKey<T>(s: seq<T>, key: T -> int) {
    forall i, j :: 0 <= i < j < |s| ==> key(s[i]) <= key(s[j])
  }

  /** Inserts `x` into the sorted sequence `s`, after every element whose key is not larger. */
  function Insert<T>(x: T, s: seq<T>, key: T -> int): (r: seq<T>)
    requires SortedByKey(s, key)
    ensures SortedByKey(r, key)
    ensures multiset(r) == multiset(s) + multiset{x}
    ensures |r| == |s| + 1
    decreases |s|
  {
    if s == [] then [x]
    else if key(x) < key(s[0]) then
      assert SortedByKey([x] + s, key) by {
        forall i, j | 0 <= i < j < |[x] + s| ensures key(([x] + s)[i]) <= key(([x] + s)[j]) {
          if i > 0 {
            assert ([x] + s)[i] == s[i - 1];
          }
          assert ([x] + s)[j] == s[j - 1];
        }
      }
      [x] + s
    else
      var t := Insert(x, s[1..], key);
      InsertHead(s, t, x, key);
      [s[0]] + t
  }

  /** The step of `Insert` that puts the old head in front of the recursive result. */
  lemma InsertHead<T>(s: seq<T>, t: seq<T>, x: T, key: T -> int)
    requires s != [] && key(s[0]) <= key(x)
    requires SortedByKey(s, key) && SortedByKey(t, key)
    requires multiset(t) == multiset(s[1..]) + multiset{x}
    ensures SortedByKey([s[0]] + t, key)
    ensures multiset([s[0]] + t) == multiset(s) + multiset{x}
  {
    assert s == [s[0]] + s[1..];
    var r := [s[0]] + t;
    forall i, j | 0 <= i < j < |r| ensures key(r[i]) <= key(r[j]) {
      assert r[j] == t[j - 1];
      if i == 0 {
        var y := t[j - 1];
        assert y in multiset(t);
        if y != x {
          assert y in multiset(s[1..]);
          var k :| 0 <= k < |s[1..]| && s[1..][k] == y;
          assert s[k + 1] == y;
        }
      } else {
        assert r[i] == t[i - 1];
      }
    }
  }

  /** Sorts `s` by `key`; elements with equal keys keep their relative order. */
  function SortByKey<T>(s: seq<T>, key: T -> int): (r: seq<T>)
    ensures SortedByKey(r, key)
    ensures multiset(r) == multiset(s)
    ensures |r| == |s|
    decreases |s|
  {
    if s == [] then []
    else
      assert s == [s[0]] + s[1..];
      Insert(s[0], SortByKey(s[1..], key), key)
  }

  /** Sorting keeps exactly the elements it was given. */
  lemma SortKeepsElements<T>(s: seq<T>, key: T -> int)
    ensures forall x :: x in SortByKey(s, key) <==> x in s
  {
    var r := SortByKey(s, key);
    forall x ensures x in r <==> x in s {
      assert x in r <==> x in multiset(r);
      assert x in s <==> x in multiset(s);
    }
  }

  /** Two sorted runs, the first no larger than the second, make a sorted sequence. */
  lemma SortedConcat<T>(a: seq<T>, b: seq<T>, key: T -> int)
    requires SortedByKey(a, key) && SortedByKey(b, key)
    requires forall x, y :: x in a && y in b ==> key(x) <= key(y)
    ensures SortedByKey(a + b, key)
  {
    var ab := a + b;
    forall i, j | 0 <= i < j < |ab| ensures key(ab[i]) <= key(ab[j]) {
      if j < |a| {
        assert ab[i] == a[i] && ab[j] == a[j];
      } else if i < |a| {
        assert ab[i] in a && ab[j] in b;
      } else {
        assert ab[i] == b[i - |a|] && ab[j] == b[j - |a|];
      }
    }
  }

  /** Sum of `w` over the elements of `s`. */
  function SumOf<T>(s: seq<T>, w: T -> int): int {
    if s == [] then 0 else SumOf(s[..|s| - 1], w) + w(s[|s| - 1])
  }

  lemma {:induction false} SumOfConcat<T>(a: seq<T>, b: seq<T>, w: T -> int)
    ensures SumOf(a + b, w) == SumOf(a, w) + SumOf(b, w)
    decreases |b|
  {
    if b != [] {
      var b' := b[..|b| - 1];
      assert (a + b)[..|a + b| - 1] == a + b';
      assert (a + b)[|a + b| - 1] == b[|b| - 1];
      SumOfConcat(a, b', w);
    } else {
      assert a + b == a;
    }
  }

  /** Sums of equal terms are equal. */
  lemma {:induction false} SumOfPointwise<T, U>(a: seq<T>, w: T -> int, b: seq<U>, v: U -> int)
    requires |a| == |b|
    requires forall j :: 0 <= j < |a| ==> w(a[j]) == v(b[j])
    ensures SumOf(a, w) == SumOf(b, v)
    decreases |a|
  {
    if a != [] {
      SumOfPointwise(a[..|a| - 1], w, b[..|b| - 1], v);
    }
  }

  /** Taking one element out of a sequence takes its weight out of the sum. */
  lemma SumOfRemove<T>(b: seq<T>, i: nat, w: T -> int)
    requires i < |b|
    ensures SumOf(b, w) == SumOf(b[..i] + b[i + 1..], w) + w(b[i])
  {
    var p, x, q := b[..i], [b[i]], b[i + 1..];
    assert b == p + (x + q);
    SumOfConcat(p, x + q, w);
    assert SumOf(b, w) == SumOf(p, w) + SumOf(x + q, w);
    SumOfConcat(x, q, w);
    SumOfSingle(b[i], w);
    assert SumOf(x + q, w) == w(b[i]) + SumOf(q, w);
    SumOfConcat(p, q, w);
  }

  lemma SumOfSingle<T>(v: T, w: T -> int)
    ensures SumOf([v], w) == w(v)
  {
    assert [v][..0] == [];
  }

  lemma MultisetRemove<T>(b: seq<T>, i: nat)
    requires i < |b|
    ensures multiset(b[..i] + b[i + 1..]) == multiset(b) - multiset{b[i]}
  {
    assert b == b[..i] + [b[i]] + b[i + 1..];
  }

  /** A sum does not depend on the order of the summands. */
  lemma {:induction false} SumOfPermutation<T>(a: seq<T>, b: seq<T>, w: T -> int)
    requires multiset(a) == multiset(b)
    ensures SumOf(a, w) == SumOf(b, w)
    decreases |a|
  {
    if a != [] {
      var x := a[|a| - 1];
      var a' := a[..|a| - 1];
      assert a == a' + [x];
      assert SumOf(a, w) == SumOf(a', w) + w(x);
      assert multiset(a') == multiset(a) - multiset{x};
      assert x in multiset(b);
      var i :| 0 <= i < |b| && b[i] == x;
      MultisetRemove(b, i);
      SumOfPermutation(a', b[..i] + b[i + 1..], w);
      SumOfRemove(b, i, w);
    }
  }
}

=== FILE: wrappers.dfy ===
/** Failure-carrying datatypes shared by the modules of this project. */
module Wrappers {

  /** A value that may be absent (a vector of size zero or one in hal). */
  datatype Option<+T> = None | Some(value: T)

  /** The outcome of an operation that hal reports by throwing `hal_exception`. */
  datatype Result<+T, +E> = Success(value: T) | Failure(error: E)
}
